=== FILE: README.md ===
# mmv changeset model

A Dafny model of the core of `mmv`, a tool that stages bulk moves, deletions and
renames of the files in a directory. The staged changes are two line-aligned
text files kept in the workspace directory, `.mmv.sources` and `.mmv.targets`.
Line *i* of the sources file names a file; line *i* of the targets file says
what to do with it:

- a blank line deletes the file;
- a line starting with whitespace is a comment, and the file is left alone;
- any other line is the path to move the file to.

The model covers:

- the one-line action codec;
- the positional import of the two files into an ordered record map, with its
  overflow lists and the clean check;
- the export of a record map back to two files;
- the sidecar paths;
- the tree scan;
- the `init` command (with its force guard) and the unguarded inline `init`;
- the `update` command, a merge-join of the scanned tree against the record
  map;
- the `execute` command, a sequential state machine over an abstract
  filesystem that stops at the first failing operation;
- the status report and the mapping from results to exit codes.

Modelling choices:

- **Paths** are their display text. One character-wise total order,
  `Paths.Less`, orders both the scanned tree and the record map. The merge in
  `update` is only correct because both sides are sorted by the same order.
- **Ordered maps.** A `BTreeMap` is its iteration: a strictly ascending
  association list. A `BTreeSet` is the same structure with unit values.
- **Sidecar files** are their lines as `BufRead::lines` reads them,
  `Sidecars(sources, targets)`. Whether both files exist is an `Option`. The
  export writes each line followed by a line feed (`writeln!`). What it leaves
  is what reading that text back gives, `Lines.LinesOf(Lines.Written(..))`.
  A key or an action text holding a line feed, or ending in a carriage
  return, therefore does not come back as it was written.
- **Directory walk.** The walk is an input: a sequence of entries with depth,
  kind and full path.
- **Filesystem.** Execution works on an abstract filesystem: a map from path
  to bytes plus a set of directories. An operation fails when the filesystem
  itself rules it out (missing source, missing parent directory, a file in the
  way of a directory) or when the given failures map names it. The map stands
  for permissions, full disks and I/O errors. It says how the operation fails.
  Either it is refused before it changes anything, or it breaks off part-way.
  `std::fs::copy` truncates the destination before it writes, so a broken-off
  copy leaves the destination holding a prefix of the source's bytes.
  `create_dir_all` creates the missing directories from the outermost down, so
  a broken-off directory creation leaves some of the outer ones in place.
- **Inline copies.** The `update` and `execute` functions inlined in
  `src/main.rs:81-117` and `src/main.rs:155-206` behave like the command
  versions. They differ only in what they print, so `UpdateCommand.Run` and
  `ExecuteCommand.Run` model both.

Places where one might expect more of the code than it does:

- **Empty comment.** One might expect `Ignore("")`, written as a single space,
  to read back as `Ignore("")`. The code trims that space away and reads the
  line as `Delete` (`Actions.RoundTrip`).
- **Format round-trip.** One might expect formatting then parsing to
  reproduce every action. The code reproduces exactly the canonical ones: a
  non-empty move target not starting with whitespace, `Delete`, and a
  non-empty trimmed comment.
- **Update idempotence on disk.** One might expect a second `update` on an
  unchanged tree to rewrite identical files. `UpdateCommand.UpdateStable`
  proves that it does when every line written reads back as written and every
  scanned path is non-empty and has no surrounding whitespace. Those
  conditions are sufficient, not necessary. What can break stability is a
  new path that is blank or has surrounding whitespace. Its placeholder is
  read back trimmed, or as `Delete`, so the second run can write a different
  target line for it. For a new file named " a", the first run writes the
  target line "  a" and the second writes " a"
  (`UpdateCommand.UpdateNotStableForSpacedName`).
- **All-whitespace file names.** One might expect a freshly initialized
  changeset, executed without an edit, to change nothing. A file whose name is
  all whitespace gets a target line of only whitespace, which reads back as
  `Delete` (`Actions.PlaceholderReparse`, `InitCommand.ResetReimportedActions`).
  So `init` followed by `execute` deletes that file
  (`Cli.InitThenExecuteDeletesBlankName`).
- **Names with line breaks.** A file name `x` + line feed + `y` (with `x` and
  `y` single lines) is written as two source lines. With a deletion as its
  action there is one target line beside them. The changeset then no longer
  imports cleanly, and `update` and `execute` refuse it
  (`ChangeSets.ExportSplitsKey`). With its placeholder comment, the target
  text splits as well. The import is then clean, but the name is lost.
  The map's keys are the two halves, and the second half is given its own
  text parsed as a target line (`ChangeSets.ExportMisPairsKey`). For the name
  "a\nb" that is a move of "b" to its own name; for "a\na" it is the one
  record ("a", `Move("a")`); for "a\n " it is a deletion of " ".

Another boundary of the code: a move whose destination is its own source path
copies the file onto itself and then removes it. This happens when the target
directory is the workspace and a target line is set to the file's own path.
`std::fs::copy` truncates the destination before it reads the source, so the
copy empties the file. A completed move leaves no file there; if only the
removal fails, an empty file is left (`ExecuteCommand.MoveOntoItself`,
`ExecuteCommand.SelfMoveRefusedRemovalEmpties`).

## Model

| member | source | states |
|---|---|---|
| Actions.TrimSpec | src/changeset.rs:21-26 | trimming gives the empty string exactly for all-whitespace text (Unicode White_Space); otherwise the result starts and ends with non-whitespace |
| Actions.ParseCases | src/changeset.rs:17-31 | a line parses to Delete iff it is blank; to Ignore iff it is non-blank and starts with whitespace, the comment being the trimmed line; otherwise to Move of the untrimmed line |
| Actions.RoundTrip | src/changeset.rs:17-41 | parse(format(a)) == a holds exactly for canonical actions; Ignore("") comes back as Delete |
| Actions.ParsedIsCanonical | src/changeset.rs:17-41 | every parsed line is canonical, so one write and re-read of a parsed action is stable |
| Actions.PlaceholderReparse | src/commands/update.rs:28-30 | the placeholder comment for a path reads back trimmed, as Delete when the path is blank, and unchanged exactly when the path is non-empty and trimmed |
| Paths.LessTotal | src/commands/update.rs:24-25 | any two distinct paths are ordered one way or the other by the single path order |
| Paths.LessTransitive | src/commands/update.rs:24-25 | the path order used by both sides of the merge is transitive |
| Paths.JoinComponents | src/changeset.rs:217-223 | joining a directory and a name gives a path whose final component is the name's final component, and whose parent is the directory when the name is a single component |
| ChangeSets.SourcesPath | src/changeset.rs:217-219 | the sources file lies directly in the workspace directory and is named `.mmv.sources` |
| ChangeSets.TargetsPath | src/changeset.rs:221-223 | the targets file lies directly in the workspace directory and is named `.mmv.targets` |
| OrderedMaps.InsertSpec | src/changeset.rs:135 | inserting into a sorted map keeps it sorted, grows it by at most one entry and adds exactly the inserted key |
| OrderedMaps.InsertGet | src/changeset.rs:135 | after an insert the key maps to the new value, replacing any earlier one, and every other lookup is unchanged |
| OrderedMaps.SortedAscending | src/commands/update.rs:24-25 | a map is sorted exactly when its key sequence is ascending in the path order, so the map and the tree are ordered alike |
| OrderedMaps.FromPairsSpec | src/changeset.rs:132-136 | collecting pairs into a map gives exactly their keys, each with the value of its last pair |
| ChangeSets.ImportPairsByLine | src/changeset.rs:132-136 | line i of the sources is paired with line i of the targets below the shorter length; a repeated source keeps its last line's action; the map has at most that many entries |
| ChangeSets.ImportOverflow | src/changeset.rs:137-142 | with more source lines the surplus, in order, is the unmapped sources and there are no unmapped targets, and symmetrically |
| ChangeSets.Import | src/changeset.rs:125-150 | the lockstep read loop yields the import defined by pairing and overflow |
| ChangeSets.ImportedCanonical | src/changeset.rs:128-135 | every imported action is canonical |
| ChangeSets.ImportCleanIff | src/changeset.rs:168-170 | an import is clean iff the two files have equally many lines |
| ChangeSets.Clean | src/changeset.rs:172-181 | clean yields a changeset iff the import is clean, with the same workspace and records |
| Lines.ReadWritten | src/changeset.rs:59-69 | lines written one by one, each followed by a line feed, read back as the same lines when none holds a line feed or ends in a carriage return |
| Lines.SplitOnRead | src/changeset.rs:125-129 | a line made of two single lines joined by a line feed is read back as those two lines |
| Lines.DropsCarriageReturn | src/changeset.rs:125-129 | a line with no line feed followed by a carriage return is read back without that carriage return |
| ChangeSets.Export | src/changeset.rs:59-69 | when every key and action text is a single line, the export reads back as the keys in order beside their action texts |
| ChangeSets.ExportSplitsKey | src/changeset.rs:59-69 | a key made of single lines x and y joined by one line feed, with a deletion, is read back as the source lines x, y beside one empty target line, and the import is not clean |
| ChangeSets.ExportSplitsPlaceholder | src/changeset.rs:59-69 | such a key x-line-feed-y with the comment holding it is read back as the line pairs (x, a space then x) and (y, y) |
| ChangeSets.ImportTwoPairs | src/changeset.rs:125-150 | two line pairs import cleanly; the keys are the two source lines, the second with its own target line's action, the first with its own when the two differ |
| ChangeSets.ImportSplitPlaceholder | src/changeset.rs:125-150 | for the key "a\nb" those line pairs import as the records ("a", comment "a") and ("b", move to "b") |
| ChangeSets.ExportMisPairsKey | src/changeset.rs:59-69 | exporting such a key x-line-feed-y with its placeholder and importing it back is clean, but the key is gone: the keys are x and y, y with its own text parsed as a target line, x with the comment holding it when x and y differ |
| ChangeSets.ParsedWritable | src/changeset.rs:17-41 | a single line parses to an action whose text is again a single line |
| ChangeSets.ImportedWritable | src/changeset.rs:125-150 | when every target line is a single line, so is the text of every imported action |
| ChangeSets.NormalizedKeys | src/changeset.rs:125-150 | normalizing the actions of a record map changes none of its keys |
| ChangeSets.ImportRecordLines | src/changeset.rs:125-150 | importing one line per record, keys beside action texts, is clean and gives back the records with their actions normalized |
| ChangeSets.ExportImportRoundTrip | src/changeset.rs:59-69 | when every key and action text is a single line, re-importing an export is clean with the same keys and each action normalised, and with canonical actions gives back the changeset |
| Scan.Relative | src/main.rs:55-60 | the listed path joined back onto the workspace directory is the walked entry's path |
| Scan.ScanTreeListsExactly | src/main.rs:26-61 | a path is listed iff some walked entry below the root (depth at least 1) that is a regular file without a `.mmv` name sits at that path under the root |
| Scan.ScanSkipsReserved | src/main.rs:48-53 | no listed path has a file name starting with `.mmv` |
| Scan.SidecarsNeverScanned | src/main.rs:48-53 | the sidecar files of a workspace are never listed, so they never become keys |
| InitCommand.InitialRecordsSpec | src/commands/init.rs:17-21 | the initial records hold exactly the scanned paths, each mapped to the comment holding its own path |
| InitCommand.InitialRecordsWritable | src/commands/init.rs:17-21 | single-line scanned paths give records whose keys and placeholder texts are single lines |
| InitCommand.InitialLines | src/commands/init.rs:17-24 | the initial records' lines list every scanned path once, ascending, each target line a space followed by its source line |
| InitCommand.ResetLines | src/commands/init.rs:17-24 | with single-line scanned paths, the written files list every scanned path once, ascending, each target line being a space followed by its source line |
| InitCommand.ResetReimportedKeys | src/commands/init.rs:23-24 | with single-line scanned paths, importing the written files back gives a map keyed by exactly the scanned paths |
| InitCommand.ResetReimportedActions | src/commands/init.rs:17-24 | with single-line scanned paths, importing the written files back gives each path a comment holding the trimmed path, or a deletion when the path is all whitespace |
| InitCommand.Run | src/commands/init.rs:9-28 | without force an initialized workspace is left untouched and the run succeeds; otherwise the files are rebuilt from the tree |
| UpdateCommand.CollectTreeMembers | src/commands/update.rs:20 | the collected tree holds exactly the scanned paths, in ascending order |
| UpdateCommand.Reconcile | src/commands/update.rs:24-41 | the merge-join yields the tree's paths in order, each with its old action if it had one and its placeholder otherwise |
| UpdateCommand.ReconcileLookup | src/commands/update.rs:24-41 | the merged map is sorted and keyed by exactly the tree; a common path keeps its action, a new path gets its placeholder, a vanished path is dropped |
| UpdateCommand.ReconcileIdempotent | src/commands/update.rs:24-41 | merging a second time against the same tree returns the same map |
| UpdateCommand.Run | src/commands/update.rs:11-47 | missing sidecar files give NotInitialized and unequal line counts NotClean, both writing nothing; otherwise the run succeeds and writes new files |
| UpdateCommand.ReconcileWritable | src/commands/update.rs:24-41 | merging single-line paths with records whose action texts are single lines gives records whose keys and action texts are single lines |
| UpdateCommand.RunWritable | src/commands/update.rs:15-44 | with single-line scanned paths and target lines, the merged map an update exports has single-line keys and action texts |
| UpdateCommand.RunWrites | src/commands/update.rs:20-44 | with single-line scanned paths and target lines, a successful update writes equal-length files with ascending source lines, each target line being the old action's text or the placeholder's |
| UpdateCommand.RunWritesScanned | src/commands/update.rs:20-44 | with single-line scanned paths and target lines, the source lines a successful update writes are exactly the scanned paths |
| UpdateCommand.UpdateStable | src/commands/update.rs:11-47 | a second update on an unchanged tree rewrites the same files, when every scanned path and target line is a single line and every scanned path is non-empty and trimmed |
| UpdateCommand.RunOnePath | src/commands/update.rs:15-44 | an update of a clean changeset over a one-path tree writes that path beside the text of its merged action |
| UpdateCommand.SpacedNameFirstUpdate | src/commands/update.rs:28-30 | an update that finds the new file " a" writes the target line "  a", its placeholder comment |
| UpdateCommand.SpacedNameReimport | src/changeset.rs:125-135 | that target line is read back as a comment holding the trimmed name "a" |
| UpdateCommand.SpacedNameSecondUpdate | src/commands/update.rs:11-47 | a second update over the same tree writes the target line " a" |
| UpdateCommand.UpdateNotStableForSpacedName | src/commands/update.rs:11-47 | two updates in a row over an unchanged tree can give different results |
| FileSystem.ApplyEffect | src/commands/execute.rs:31-40 | directory creation changes no file; a copy gives the destination the source's bytes, or empties it when it is the source, and changes no other path; a removal deletes exactly its path; each fails on a missing source |
| Paths.DirsTopDownChain | src/commands/execute.rs:32 | the directories `create_dir_all` works through are exactly the target and its ancestors, each the parent of the next, outermost first |
| FileSystem.FailedEffect | src/commands/execute.rs:31-40 | a refused operation and a failed removal change nothing; a directory creation broken off part-way changes no file and adds only directories of the target's chain where no file was; a copy broken off after it started changes only its destination, which holds a prefix of the source's bytes |
| FileSystem.CreateDirAllTornKeepsOuter | src/commands/execute.rs:32 | creating "a/b" from nothing, broken off after one level, fails and leaves the directory "a" behind |
| FileSystem.TornCopyClobbers | src/commands/execute.rs:36 | a copy broken off after n bytes fails and leaves the destination holding the first n bytes of the source, whatever it held before, or nothing when the destination is the source |
| FileSystem.RunOps | src/commands/execute.rs:31-49 | a run stops at the first failing operation and reports it; it succeeds only when every operation was applied |
| FileSystem.RunOpsAppend | src/commands/execute.rs:22-56 | running two operation sequences back to back continues from where the first ended and never starts the second after a failure |
| FileSystem.RunOpsPrefix | src/commands/execute.rs:22-56 | the operations before the failing one all succeed and reach the reported state |
| ExecuteCommand.PlanInKeyOrder | src/commands/execute.rs:22 | records are handled in the map's key order: the earlier records' operations, then this record's, then the later ones' |
| ExecuteCommand.Perform | src/commands/execute.rs:31-40 | the per-record operations are performed one at a time until one fails |
| ExecuteCommand.Execute | src/commands/execute.rs:22-56 | the record loop reaches the state and status of running the whole plan, stopping at the first error |
| ExecuteCommand.Run | src/commands/execute.rs:9-63 | missing sidecar files give NotInitialized and unequal line counts NotClean, with the filesystem untouched; otherwise the imported records are executed |
| ExecuteCommand.FailsAtExtend | src/commands/execute.rs:22-59 | a failure at a record of a plan is still the failure at that record when more records follow |
| ExecuteCommand.FirstFailureAborts | src/commands/execute.rs:22-59 | a run fails iff some record's operations failed after every earlier record completed, and no later record was started |
| ExecuteCommand.MoveNeverLosesData | src/commands/execute.rs:31-40 | a move that fails keeps the source file with its bytes; a failed directory creation changes no file; a failed copy changes no path but the destination, which it leaves as it was or holding a prefix of the source's bytes, and a refused copy changes nothing; if only the removal failed, both paths hold the source's bytes, except that a move onto its own path leaves the file empty |
| ExecuteCommand.MoveMovesFile | src/commands/execute.rs:26-40 | a completed move leaves the bytes at the destination, no file at the source, and every other file as it was |
| ExecuteCommand.MoveOntoItself | src/commands/execute.rs:27-40 | a completed move onto its own path leaves no file there; when only its removal fails, the file is left empty |
| ExecuteCommand.SelfMoveRefusedRemovalEmpties | src/commands/execute.rs:27-40 | moving "a" onto itself in workspace "w" with the removal refused fails at the removal and leaves "w/a" empty instead of holding its three bytes |
| ExecuteCommand.DeleteTouchesOnlySource | src/commands/execute.rs:45-49 | a deletion succeeds iff the source exists and its removal does not fail; it removes only the source and on failure changes nothing |
| ExecuteCommand.IgnoredRecordsChangeNothing | src/commands/execute.rs:54 | records that are all comments perform no operation and leave the filesystem as it was |
| Cli.ExitFor | src/main.rs:261-278 | success exits with OK (0); NotInitialized and NotClean exit with DATAERR (65); an internal error is propagated unchanged |
| Cli.UpdateExit | src/main.rs:261-278 | an update exits with OK exactly when the changeset exists and is clean, and otherwise with DATAERR, having written nothing |
| Cli.BlankNameImportsAsDelete | src/commands/init.rs:17-24 | a file named a single space is read back from a fresh changeset with a deletion as its action |
| Cli.ExecuteBlankDelete | src/commands/execute.rs:45-49 | executing the deletion of that file removes it and nothing else |
| Cli.InitThenExecuteDeletesBlankName | src/commands/init.rs:17-24 | a freshly initialized changeset executed without an edit deletes a file named a single space |
| Cli.InlineInit | src/main.rs:64-79 | the inline init behaves as the init command with force whatever is on disk, overwriting a changeset the guarded command would keep |
| Cli.Status | src/main.rs:119-132 | missing sidecar files give NotInitialized; otherwise the report is whether the line counts agree |

## Left out

- The I/O errors of reading and writing the sidecar files are not modelled:
  those of `File::open`, `File::create`, `writeln!` and `BufRead::lines`. In
  the model, import and export cannot fail.
- ChangeSets.ExportImportRoundTrip: assumes every key and every action text
  is a single line, with no line feed and no trailing carriage return. The
  code writes a text holding a line feed as two lines, and reading drops a
  trailing carriage return, so such records do not come back
  (`ChangeSets.ExportSplitsKey`, `ChangeSets.ExportMisPairsKey`,
  `Lines.DropsCarriageReturn`).
  `InitCommand.ResetLines`, `InitCommand.ResetReimportedKeys`,
  `InitCommand.ResetReimportedActions`, `UpdateCommand.RunWrites`,
  `UpdateCommand.RunWritesScanned` and `UpdateCommand.UpdateStable` assume the
  same of the scanned paths and the target lines.
- The directory walk is an input. `WalkDir`'s per-directory sort does not
  matter, because every caller re-sorts. Its walk errors are logged and
  skipped. Non-UTF-8 file names cannot be represented: the code does not skip
  them even when they start with `.mmv`.
- `PathBuf` semantics are simplified:
  - paths are compared character by character, not component by component;
  - joining an absolute path does not replace the base;
  - `.` components and trailing separators are not normalised;
  - `display()` is taken to be lossless.
- `reflink_or_copy` is a plain copy of the bytes. Whether the copy is a
  reflink is invisible at this level. A failing copy either leaves the
  destination as it was or holding a prefix of the source's bytes.
  A reflink onto an existing path is refused, so a copy onto its own source
  always falls back to `std::fs::copy`. The model follows that function on
  Unix, which truncates the destination before reading and so empties the
  file. Other platforms' copy routines are not modelled.
- `create_dir_all` is a walk down the target's ancestors. A creation broken
  off part-way keeps the outer directories it made, and a failing removal
  removes nothing.
- Symbolic links and permissions are not modelled. Any other failure cause is
  an entry of the given failures map.
- `Workspace::open` is not modelled at file level. Its `is_file` checks become
  the presence of the sidecar lines. The sidecar files are kept apart from the
  filesystem that `execute` changes.
- The `edit` command is not modelled: it runs an external editor.
  `src/commands/status.rs` is not part of this model; the inline status report
  is modelled by `Cli.Status`.
- Argument parsing is not modelled. This includes the default workspace being
  the current directory.
- Printing and colours are not modelled. This covers the differences in
  messages between the inline and the command versions.
- ExecuteCommand.MoveMovesFile: assumes the source and destination paths
  differ. When they are equal, the completed move removes the file, as
  `ExecuteCommand.MoveOntoItself` shows.
- UpdateCommand.UpdateStable: assumes every scanned path is non-empty and has
  no surrounding whitespace, and that every line is a single line. These
  conditions are sufficient, not necessary: the lemma does not say when a
  second run changes the files. A new path that is blank or has surrounding
  whitespace can make it change them (`UpdateCommand.UpdateNotStableForSpacedName`).
- The exit status the runtime gives a propagated internal error is not
  modelled; `Cli.ExitFor` only says that the error is handed on unchanged.

=== FILE: action.dfy ===
/**
 The per-file action and its one-line text form, as kept in the targets file.
 A blank line means delete, a line that starts with whitespace is a comment
 (the file is left alone), and anything else is the path to move the file to.
 */
module Actions {
  import opened Paths

  datatype Action = Move(target: Path) | Delete | Ignore(comment: string)

  /** Rust's `char::is_whitespace`: the Unicode White_Space property. */
  predicate IsWhitespace(c: char)
  {
    var n := c as int;
    || (0x09 <= n <= 0x0D)
    || n == 0x20
    || n == 0x85
    || n == 0xA0
    || n == 0x1680
    || (0x2000 <= n <= 0x200A)
    || n == 0x2028
    || n == 0x2029
    || n == 0x202F
    || n == 0x205F
    || n == 0x3000
  }

  predicate IsBlank(s: string)
  {
    forall i :: 0 <= i < |s| ==> IsWhitespace(s[i])
  }

  /** `str::trim_start`: drops the leading whitespace. */
  function TrimStart(s: string): (r: string)
    ensures |r| <= |s|
    decreases |s|
  {
    if s != [] && IsWhitespace(s[0]) then TrimStart(s[1..]) else s
  }

  /** `str::trim_end`: drops the trailing whitespace. */
  function TrimEnd(s: string): (r: string)
    ensures |r| <= |s|
    decreases |s|
  {
    if s != [] && IsWhitespace(s[|s| - 1]) then TrimEnd(s[..|s| - 1]) else s
  }

  /** `str::trim`: drops the leading and the trailing whitespace. */
  function Trim(s: string): (r: string)
    ensures |r| <= |s|
  {
    TrimEnd(TrimStart(s))
  }

  /** What `TrimStart` removes is a whitespace prefix, and what it keeps starts with a non-whitespace character. */
  lemma {:induction false} TrimStartSpec(s: string)
    ensures var r := TrimStart(s);
            && r == s[|s| - |r|..]
            && IsBlank(s[..|s| - |r|])
            && (r != [] ==> !IsWhitespace(r[0]))
    decreases |s|
  {
    if s != [] && IsWhitespace(s[0]) {
      TrimStartSpec(s[1..]);
      var r := TrimStart(s);
      assert s[..|s| - |r|] == [s[0]] + s[1..][..|s| - 1 - |r|];
    }
  }

  /** What `TrimEnd` removes is a whitespace suffix, and what it keeps ends with a non-whitespace character. */
  lemma {:induction false} TrimEndSpec(s: string)
    ensures var r := TrimEnd(s);
            && r == s[..|r|]
            && IsBlank(s[|r|..])
            && (r != [] ==> !IsWhitespace(r[|r| - 1]))
    decreases |s|
  {
    if s != [] && IsWhitespace(s[|s| - 1]) {
      TrimEndSpec(s[..|s| - 1]);
      var r := TrimEnd(s);
      assert s[|r|..] == s[..|s| - 1][|r|..] + [s[|s| - 1]];
    }
  }

  /** `Trim` gives the empty string exactly for blank input, and otherwise text with non-whitespace ends. */
  lemma {:induction false} TrimSpec(s: string)
    ensures Trim(s) == [] <==> IsBlank(s)
    ensures Trim(s) != [] ==> !IsWhitespace(Trim(s)[0]) && !IsWhitespace(Trim(s)[|Trim(s)| - 1])
  {
    var t := TrimStart(s);
    TrimStartSpec(s);
    TrimEndSpec(t);
    assert s == s[..|s| - |t|] + t;
    var r := TrimEnd(t);
    if r != [] {
      assert r[0] == t[0];
    } else {
      assert t == t[|r|..];
    }
  }

  lemma {:induction false} TrimIdempotent(s: string)
    ensures Trim(Trim(s)) == Trim(s)
  {
    var r := Trim(s);
    TrimSpec(s);
    if r != [] {
      assert TrimStart(r) == r;
      assert TrimEnd(r) == r;
    }
  }

  lemma {:induction false} TrimLeadingSpace(s: string)
    ensures Trim(" " + s) == Trim(s)
  {
    assert (" " + s)[1..] == s;
  }

  /** Parses one line of the targets file (`From<S> for Action`). */
  function Parse(line: string): Action
  {
    if Trim(line) == [] then Delete
    else if IsWhitespace(line[0]) then Ignore(Trim(line))
    else Move(line)
  }

  /**
   A blank line is a deletion; a non-blank line starting with whitespace is a
   comment holding the trimmed line; any other line is a move to the line
   itself, untrimmed.
   */
  lemma {:induction false} ParseCases(line: string)
    ensures Parse(line).Delete? <==> IsBlank(line)
    ensures Parse(line).Ignore? <==> line != [] && !IsBlank(line) && IsWhitespace(line[0])
    ensures Parse(line).Ignore? ==> Parse(line).comment == Trim(line) && Parse(line).comment != []
    ensures Parse(line).Move? ==> Parse(line).target == line && line != [] && !IsWhitespace(line[0])
  {
    TrimSpec(line);
  }

  /** Formats an action as one line of the targets file (`Display for Action`). */
  function Format(a: Action): string
  {
    match a
    case Move(target) => target
    case Delete => ""
    case Ignore(comment) => " " + comment
  }

  /** The actions that survive being written out and read back. */
  predicate Canonical(a: Action)
  {
    match a
    case Move(target) => target != [] && !IsWhitespace(target[0])
    case Delete => true
    case Ignore(comment) => comment != [] && Trim(comment) == comment
  }

  /**
   Formatting then parsing gives back exactly the canonical actions. In
   particular `Ignore("")` is written as a single space and read back as
   `Delete`, and a move target starting with whitespace reads back as a comment.
   */
  lemma {:induction false} RoundTrip(a: Action)
    ensures Parse(Format(a)) == a <==> Canonical(a)
    ensures Parse(Format(Ignore(""))) == Delete
  {
    assert IsWhitespace(' ');
    assert IsBlank(" ");
    ParseCases(Format(a));
    match a
    case Move(target) =>
    case Delete =>
    case Ignore(comment) =>
      TrimLeadingSpace(comment);
      var line := " " + comment;
      assert line[0] == ' ';
      if IsBlank(comment) {
        assert IsBlank(line);
      } else {
        assert !IsBlank(line) by {
          var i :| 0 <= i < |comment| && !IsWhitespace(comment[i]);
          assert line[i + 1] == comment[i];
        }
      }
  }

  /** Every parsed line is canonical, so parsing is stable under a write and a re-read. */
  lemma {:induction false} ParsedIsCanonical(line: string)
    ensures Canonical(Parse(line))
    ensures Parse(Format(Parse(line))) == Parse(line)
  {
    ParseCases(line);
    if Parse(line).Ignore? {
      TrimIdempotent(line);
    }
    RoundTrip(Parse(line));
  }

  /** The action a newly seen path starts with: a comment holding the path's own text. */
  function Placeholder(p: Path): Action
  {
    Ignore(p)
  }

  /**
   A placeholder reads back trimmed, and as `Delete` when the path is all
   whitespace; it reads back unchanged exactly when the path is non-empty
   and has no surrounding whitespace.
   */
  lemma {:induction false} PlaceholderReparse(p: Path)
    ensures IsBlank(p) ==> Parse(Format(Placeholder(p))) == Delete
    ensures !IsBlank(p) ==> Parse(Format(Placeholder(p))) == Ignore(Trim(p))
    ensures Parse(Format(Placeholder(p))) == Placeholder(p) <==> p != [] && Trim(p) == p
  {
    RoundTrip(Placeholder(p));
    TrimLeadingSpace(p);
    ParseCases(Format(Ignore(p)));
    assert IsWhitespace(' ');
  }
}

=== FILE: changeset.dfy ===
/**
 The changeset: a workspace directory, its two sidecar files, the import that
 pairs their lines by position, and the export that writes a record map back.
 The sidecar files are modelled as their sequences of lines, as
 `BufRead::lines` reads them; the export writes each line followed by a line
 feed, and what it leaves is what reading that text back gives.
 */
module ChangeSets {
  import opened Options
  import opened Paths
  import opened Actions
  import opened OrderedMaps
  import opened Lines

  datatype Workspace = Workspace(path: Path)

  /** Where the list of source paths is kept. */
  function SourcesPath(ws: Workspace): (p: Path)
    ensures Parent(p) == Some(ws.path)
    ensures FileName(p) == ".mmv.sources"
  {
    JoinComponents(ws.path, ".mmv.sources");
    Join(ws.path, ".mmv.sources")
  }

  /** Where the list of actions is kept. */
  function TargetsPath(ws: Workspace): (p: Path)
    ensures Parent(p) == Some(ws.path)
    ensures FileName(p) == ".mmv.targets"
  {
    JoinComponents(ws.path, ".mmv.targets");
    Join(ws.path, ".mmv.targets")
  }

  /** The record map: source path to action, in path order. */
  type Records = OrderedMap<Action>

  datatype ChangeSet = ChangeSet(workspace: Workspace, records: Records)

  datatype ChangeSetImport = ChangeSetImport(
    workspace: Workspace,
    records: Records,
    unmappedSources: seq<Path>,
    unmappedTargets: seq<Action>)

  /** The contents of the two sidecar files, line by line. */
  datatype Sidecars = Sidecars(sources: seq<string>, targets: seq<string>)

  function Min(a: int, b: int): int { if a <= b then a else b }

  function Max(a: int, b: int): int { if a <= b then b else a }

  /** Line `i` of the sources paired with line `i` of the targets, parsed. */
  function Pairs(sources: seq<string>, targets: seq<string>): (ps: seq<(Path, Action)>)
    requires |sources| == |targets|
    ensures |ps| == |sources|
    ensures forall i :: 0 <= i < |ps| ==> ps[i] == (sources[i], Parse(targets[i]))
  {
    seq(|sources|, i requires 0 <= i < |sources| => (sources[i], Parse(targets[i])))
  }

  function ParseAll(lines: seq<string>): (actions: seq<Action>)
    ensures |actions| == |lines|
    ensures forall i :: 0 <= i < |lines| ==> actions[i] == Parse(lines[i])
  {
    seq(|lines|, i requires 0 <= i < |lines| => Parse(lines[i]))
  }

  lemma {:induction false} ParseAllSnoc(lines: seq<string>, line: string)
    ensures ParseAll(lines + [line]) == ParseAll(lines) + [Parse(line)]
  {
    var a, b := ParseAll(lines + [line]), ParseAll(lines) + [Parse(line)];
    forall i | 0 <= i < |a| ensures a[i] == b[i] {
      if i < |lines| {
        assert (lines + [line])[i] == lines[i];
      }
    }
  }

  /** No later line among the first `n` repeats line `i`. */
  ghost predicate LastAmong(lines: seq<string>, i: int, n: int)
    requires 0 <= i < n <= |lines|
  {
    forall j :: i < j < n ==> lines[j] != lines[i]
  }

  /**
   The result of importing the sidecar files: the paired lines collected into
   the record map, and the lines of the longer file that have no partner.
   */
  function Imported(ws: Workspace, files: Sidecars): (imp: ChangeSetImport)
    ensures imp.workspace == ws
    ensures Sorted(imp.records)
  {
    var n := Min(|files.sources|, |files.targets|);
    ChangeSetImport(ws, FromPairs(Pairs(files.sources[..n], files.targets[..n])),
                    files.sources[n..], ParseAll(files.targets[n..]))
  }

  /**
   Line `i` of the sources is paired with line `i` of the targets for every `i`
   below the shorter length; a repeated source path keeps the action of its
   last line, so the map has at most that many entries.
   */
  lemma {:induction false} ImportPairsByLine(ws: Workspace, files: Sidecars)
    ensures var imp := Imported(ws, files);
            var n := Min(|files.sources|, |files.targets|);
            && |imp.records| <= n
            && Keys(imp.records) == (set i | 0 <= i < n :: files.sources[i])
            && forall i :: 0 <= i < n && LastAmong(files.sources, i, n) ==>
                 Get(imp.records, files.sources[i]) == Some(Parse(files.targets[i]))
  {
    var n := Min(|files.sources|, |files.targets|);
    var ps := Pairs(files.sources[..n], files.targets[..n]);
    var records := FromPairs(ps);
    FromPairsSpec(ps);
    var fromPairs := set i | 0 <= i < |ps| :: ps[i].0;
    var fromLines := set i | 0 <= i < n :: files.sources[i];
    forall x | x in fromPairs ensures x in fromLines {
      var i :| 0 <= i < |ps| && ps[i].0 == x;
      assert files.sources[i] == x;
    }
    forall x | x in fromLines ensures x in fromPairs {
      var i :| 0 <= i < n && files.sources[i] == x;
      assert ps[i].0 == x;
    }
    assert fromPairs == fromLines;
    forall i | 0 <= i < n && LastAmong(files.sources, i, n)
      ensures Get(records, files.sources[i]) == Some(Parse(files.targets[i]))
    {
      LastValueAt(ps, i);
    }
  }

  /** Every imported action is canonical: it survives being written out and read back. */
  lemma {:induction false} ImportedCanonical(ws: Workspace, files: Sidecars)
    ensures var records := Imported(ws, files).records;
            forall i :: 0 <= i < |records| ==> Canonical(records[i].1)
  {
    var n := Min(|files.sources|, |files.targets|);
    var ps := Pairs(files.sources[..n], files.targets[..n]);
    forall i | 0 <= i < |ps| ensures Canonical(ps[i].1) {
      ParsedIsCanonical(files.targets[i]);
    }
    FromPairsAll(ps, Canonical);
  }

  /**
   With more source lines than target lines the surplus source lines, in
   order, are the unmapped sources and there are no unmapped targets; and
   symmetrically with more target lines.
   */
  lemma {:induction false} ImportOverflow(ws: Workspace, files: Sidecars)
    ensures var imp := Imported(ws, files);
            |files.sources| >= |files.targets| ==>
              imp.unmappedSources == files.sources[|files.targets|..] && imp.unmappedTargets == []
    ensures var imp := Imported(ws, files);
            |files.targets| >= |files.sources| ==>
              imp.unmappedSources == [] && imp.unmappedTargets == ParseAll(files.targets[|files.sources|..])
  {
  }

  /** The import after its first `i` steps of reading both files in lockstep. */
  ghost function ImportedUpTo(ws: Workspace, files: Sidecars, i: nat): ChangeSetImport
  {
    var n := Min(|files.sources|, |files.targets|);
    var m := Min(i, n);
    ChangeSetImport(ws, FromPairs(Pairs(files.sources[..m], files.targets[..m])),
                    files.sources[n..Max(n, Min(i, |files.sources|))],
                    ParseAll(files.targets[n..Max(n, Min(i, |files.targets|))]))
  }

  lemma {:induction false} ImportBounds(ws: Workspace, files: Sidecars)
    ensures ImportedUpTo(ws, files, 0) == ChangeSetImport(ws, [], [], [])
    ensures ImportedUpTo(ws, files, Max(|files.sources|, |files.targets|)) == Imported(ws, files)
  {
    assert files.sources[..0] == [] && files.targets[..0] == [];
  }

  /** A step of the import loop that reads a line from both files inserts the pair. */
  lemma {:induction false} ImportStepPaired(ws: Workspace, files: Sidecars, i: nat)
    requires i < |files.sources| && i < |files.targets|
    ensures var before := ImportedUpTo(ws, files, i);
            ImportedUpTo(ws, files, i + 1) ==
              before.(records := Insert(before.records, files.sources[i], Parse(files.targets[i])))
  {
    assert Pairs(files.sources[..i + 1], files.targets[..i + 1])[..i] == Pairs(files.sources[..i], files.targets[..i]);
  }

  /** A step that finds only a source line appends it to the unmapped sources. */
  lemma {:induction false} ImportStepSource(ws: Workspace, files: Sidecars, i: nat)
    requires |files.targets| <= i < |files.sources|
    ensures var before := ImportedUpTo(ws, files, i);
            ImportedUpTo(ws, files, i + 1) ==
              before.(unmappedSources := before.unmappedSources + [files.sources[i]])
  {
    var n := |files.targets|;
    assert files.sources[n..i + 1] == files.sources[n..i] + [files.sources[i]];
  }

  /** A step that finds only a target line appends its action to the unmapped targets. */
  lemma {:induction false} ImportStepTarget(ws: Workspace, files: Sidecars, i: nat)
    requires |files.sources| <= i < |files.targets|
    ensures var before := ImportedUpTo(ws, files, i);
            ImportedUpTo(ws, files, i + 1) ==
              before.(unmappedTargets := before.unmappedTargets + [Parse(files.targets[i])])
  {
    var n := |files.sources|;
    assert files.targets[n..i + 1] == files.targets[n..i] + [files.targets[i]];
    ParseAllSnoc(files.targets[n..i], files.targets[i]);
  }

  /**
   One turn of the import loop: a line from both files inserts the pair into
   the map, a line from one file only goes to that file's overflow list.
   */
  function ImportStep(files: Sidecars, i: nat, imp: ChangeSetImport): ChangeSetImport
  {
    if i < |files.sources| && i < |files.targets| then
      imp.(records := Insert(imp.records, files.sources[i], Parse(files.targets[i])))
    else if i < |files.sources| then
      imp.(unmappedSources := imp.unmappedSources + [files.sources[i]])
    else if i < |files.targets| then
      imp.(unmappedTargets := imp.unmappedTargets + [Parse(files.targets[i])])
    else imp
  }

  lemma {:induction false} ImportStepAdvances(ws: Workspace, files: Sidecars, i: nat)
    requires i < Max(|files.sources|, |files.targets|)
    ensures ImportedUpTo(ws, files, i + 1) == ImportStep(files, i, ImportedUpTo(ws, files, i))
  {
    if i < |files.sources| && i < |files.targets| {
      ImportStepPaired(ws, files, i);
    } else if i < |files.sources| {
      ImportStepSource(ws, files, i);
    } else {
      ImportStepTarget(ws, files, i);
    }
  }

  /** The import loop: read both files in lockstep until both are exhausted. */
  method Import(ws: Workspace, files: Sidecars) returns (imp: ChangeSetImport)
    ensures imp == Imported(ws, files)
  {
    ImportBounds(ws, files);
    var n := Max(|files.sources|, |files.targets|);
    imp := ChangeSetImport(ws, [], [], []);
    var i := 0;
    while i < n
      invariant 0 <= i <= n
      invariant imp == ImportedUpTo(ws, files, i)
    {
      ImportStepAdvances(ws, files, i);
      imp := ImportStep(files, i, imp);
      i := i + 1;
    }
  }

  /** Every source line has its target line and the other way round. */
  predicate IsClean(imp: ChangeSetImport)
  {
    imp.unmappedSources == [] && imp.unmappedTargets == []
  }

  /** An import is clean exactly when the two sidecar files have the same number of lines. */
  lemma {:induction false} ImportCleanIff(ws: Workspace, files: Sidecars)
    ensures IsClean(Imported(ws, files)) <==> |files.sources| == |files.targets|
  {
    var imp := Imported(ws, files);
    ImportOverflow(ws, files);
    if |files.sources| > |files.targets| {
      assert files.sources[|files.targets|] in imp.unmappedSources;
    } else if |files.targets| > |files.sources| {
      assert |imp.unmappedTargets| > 0;
    }
  }

  /** Promotes a clean import to a changeset with the same workspace and records. */
  function Clean(imp: ChangeSetImport): (cs: Option<ChangeSet>)
    ensures cs.Some? <==> IsClean(imp)
    ensures cs.Some? ==> cs.value.workspace == imp.workspace && cs.value.records == imp.records
  {
    if IsClean(imp) then Some(ChangeSet(imp.workspace, imp.records)) else None
  }

  /** The target line of each record, in key order. */
  function FormatAll(records: Records): (lines: seq<string>)
    ensures |lines| == |records|
    ensures forall i :: 0 <= i < |records| ==> lines[i] == Format(records[i].1)
  {
    seq(|records|, i requires 0 <= i < |records| => Format(records[i].1))
  }

  /** An action whose text form reads back as the one line it was written as. */
  predicate WritesOneLine(a: Action)
  {
    SingleLine(Format(a))
  }

  /** Every key and every action text of the records reads back as the one line it was written as. */
  predicate Writable(records: Records)
  {
    forall i :: 0 <= i < |records| ==> SingleLine(records[i].0) && WritesOneLine(records[i].1)
  }

  /**
   Writes one source line and one target line per record, in key order, and
   gives the files as they read back: when every key and action text is a
   single line, exactly the keys and the action texts.
   */
  function Export(cs: ChangeSet): (files: Sidecars)
    ensures Writable(cs.records) ==> files == Sidecars(KeySeq(cs.records), FormatAll(cs.records))
  {
    var keys, texts := KeySeq(cs.records), FormatAll(cs.records);
    ReadWritten(keys);
    ReadWritten(texts);
    Sidecars(LinesOf(Written(keys)), LinesOf(Written(texts)))
  }

  /**
   A key holding one line feed, with a deletion as its action, is written as
   its two halves on two source lines beside one empty target line, so the
   export does not import back cleanly.
   */
  lemma {:induction false} ExportSplitsKey(ws: Workspace, x: string, y: string)
    requires SingleLine(x) && SingleLine(y)
    ensures var files := Export(ChangeSet(ws, [(x + "\n" + y, Delete)]));
            files == Sidecars([x, y], [""]) && Clean(Imported(ws, files)) == None
  {
    var records := [(x + "\n" + y, Delete)];
    var files := Export(ChangeSet(ws, records));
    assert KeySeq(records) == [x + "\n" + y];
    SplitOnRead(x, y);
    assert FormatAll(records) == [""];
    assert Written([""]) == "\n";
    assert LineEnd("\n") == 0;
    assert "\n"[1..] == [];
    assert LinesOf("\n") == [StripCr("\n"[..0])] + LinesOf([]);
    ImportCleanIff(ws, files);
  }

  /** A text that is a single line stays one with a space put before it. */
  lemma {:induction false} SpacedSingleLine(x: string)
    requires SingleLine(x)
    ensures SingleLine(" " + x)
  {
    assert forall c :: c in " " + x ==> c == ' ' || c in x;
    if x != [] {
      assert (" " + x)[|x|] == x[|x| - 1];
    }
  }

  /**
   A key holding one line feed, with the comment holding the key, is written
   as two line pairs: the first half beside a comment holding it, the second
   half beside itself.
   */
  lemma {:induction false} ExportSplitsPlaceholder(ws: Workspace, x: string, y: string)
    requires SingleLine(x) && SingleLine(y)
    ensures Export(ChangeSet(ws, [(x + "\n" + y, Ignore(x + "\n" + y))])) == Sidecars([x, y], [" " + x, y])
  {
    var records := [(x + "\n" + y, Ignore(x + "\n" + y))];
    assert KeySeq(records) == [x + "\n" + y];
    assert Format(records[0].1) == " " + (x + "\n" + y);
    assert " " + (x + "\n" + y) == (" " + x) + "\n" + y;
    assert FormatAll(records) == [(" " + x) + "\n" + y];
    SpacedSingleLine(x);
    SplitOnRead(x, y);
    SplitOnRead(" " + x, y);
  }

  /**
   Two line pairs import cleanly; the map's keys are the two source lines, the
   second keeps its own target line's action, and the first its own when the
   two differ.
   */
  lemma {:induction false} ImportTwoPairs(ws: Workspace, x: string, y: string, tx: string, ty: string)
    ensures var cs := Clean(Imported(ws, Sidecars([x, y], [tx, ty])));
            && cs.Some?
            && Keys(cs.value.records) == {x, y}
            && Get(cs.value.records, y) == Some(Parse(ty))
            && (x != y ==> Get(cs.value.records, x) == Some(Parse(tx)))
  {
    var files := Sidecars([x, y], [tx, ty]);
    ImportCleanIff(ws, files);
    assert files.sources[..2] == files.sources && files.targets[..2] == files.targets;
    var ps := Pairs(files.sources, files.targets);
    assert ps == [(x, Parse(tx)), (y, Parse(ty))];
    FromPairsSpec(ps);
    assert (set i | 0 <= i < |ps| :: ps[i].0) == {x, y} by {
      assert ps[0].0 == x && ps[1].0 == y;
    }
    assert ps[..1] == [(x, Parse(tx))];
    assert LastValue(ps, y) == Some(Parse(ty));
    if x != y {
      assert LastValue(ps, x) == LastValue(ps[..1], x);
    }
  }

  /** The two line pairs of the key "a\nb" import cleanly, the second half of the name as a move onto itself. */
  lemma ImportSplitPlaceholder(ws: Workspace)
    ensures Clean(Imported(ws, Sidecars(["a", "b"], [" a", "b"]))) ==
              Some(ChangeSet(ws, [("a", Ignore("a")), ("b", Move("b"))]))
  {
    var files := Sidecars(["a", "b"], [" a", "b"]);
    ImportCleanIff(ws, files);
    assert IsWhitespace(' ');
    assert Trim(" a") == "a";
    assert Parse(" a") == Ignore("a");
    assert Parse("b") == Move("b");
    assert files.sources[..2] == files.sources && files.targets[..2] == files.targets;
    assert Pairs(files.sources, files.targets) == [("a", Ignore("a")), ("b", Move("b"))];
    assert Less("a", "b");
    FromSortedPairs([("a", Ignore("a")), ("b", Move("b"))]);
  }

  /**
   A key holding one line feed, kept in place by a comment holding the key,
   is written as two line pairs. The import is clean, but the key is lost:
   the map holds its two halves instead, the second half with its own text
   parsed as a target line, the first with the comment holding it when the
   halves differ.
   */
  lemma {:induction false} ExportMisPairsKey(ws: Workspace, x: string, y: string)
    requires SingleLine(x) && SingleLine(y)
    ensures var cs := Clean(Imported(ws, Export(ChangeSet(ws, [(x + "\n" + y, Ignore(x + "\n" + y))]))));
            && cs.Some?
            && Keys(cs.value.records) == {x, y}
            && x + "\n" + y !in Keys(cs.value.records)
            && Get(cs.value.records, y) == Some(Parse(y))
            && (x != y ==> Get(cs.value.records, x) == Some(Parse(" " + x)))
  {
    ExportSplitsPlaceholder(ws, x, y);
    ImportTwoPairs(ws, x, y, " " + x, y);
    var k := x + "\n" + y;
    assert k[|x|] == '\n';
    assert '\n' in k;
  }

  /** A line that reads back as itself parses to an action whose text does too. */
  lemma {:induction false} ParsedWritable(line: string)
    ensures SingleLine(line) ==> WritesOneLine(Parse(line))
  {
    if SingleLine(line) {
      ParseCases(line);
      if Parse(line).Ignore? {
        var t := TrimStart(line);
        var r := Trim(line);
        TrimStartSpec(line);
        TrimEndSpec(t);
        TrimSpec(line);
        forall k | 0 <= k < |r| ensures r[k] != '\n' {
          assert r[k] == line[|line| - |t| + k];
        }
        assert IsWhitespace('\r');
        assert Format(Parse(line)) == " " + r;
        assert '\n' !in " " + r;
      }
    }
  }

  /** A single-line path gives a placeholder whose text is a single line. */
  lemma {:induction false} PlaceholderWritable(p: Path)
    ensures SingleLine(p) ==> WritesOneLine(Placeholder(p))
  {
    assert Format(Placeholder(p)) == " " + p;
    if SingleLine(p) {
      assert '\n' !in " " + p;
    }
  }

  /** When every target line is a single line, so is the text of every imported action. */
  lemma {:induction false} ImportedWritable(ws: Workspace, files: Sidecars)
    ensures AllSingle(files.targets) ==>
              var records := Imported(ws, files).records;
              forall i :: 0 <= i < |records| ==> WritesOneLine(records[i].1)
  {
    if AllSingle(files.targets) {
      var n := Min(|files.sources|, |files.targets|);
      var ps := Pairs(files.sources[..n], files.targets[..n]);
      forall i | 0 <= i < |ps| ensures WritesOneLine(ps[i].1) {
        ParsedWritable(files.targets[i]);
      }
      FromPairsAll(ps, WritesOneLine);
    }
  }

  /** Each action replaced by what writing it out and reading it back gives. */
  function Normalized(records: Records): (r: Records)
    ensures |r| == |records|
    ensures forall i :: 0 <= i < |r| ==> r[i] == (records[i].0, Parse(Format(records[i].1)))
  {
    seq(|records|, i requires 0 <= i < |records| => (records[i].0, Parse(Format(records[i].1))))
  }

  /** Normalizing changes no key. */
  lemma {:induction false} NormalizedKeys(records: Records)
    ensures Keys(Normalized(records)) == Keys(records)
  {
    var r := Normalized(records);
    forall x | x in Keys(r) ensures x in Keys(records) {
      var i :| 0 <= i < |r| && r[i].0 == x;
      assert records[i].0 == x;
    }
    forall x | x in Keys(records) ensures x in Keys(r) {
      var i :| 0 <= i < |records| && records[i].0 == x;
      assert r[i].0 == x;
    }
  }

  /** Importing one line per record, keys beside action texts, gives back the records normalized. */
  lemma {:induction false} ImportRecordLines(ws: Workspace, records: Records)
    requires Sorted(records)
    ensures var imp := Imported(ws, Sidecars(KeySeq(records), FormatAll(records)));
            IsClean(imp) && imp.records == Normalized(records)
  {
    var files := Sidecars(KeySeq(records), FormatAll(records));
    var n := |records|;
    assert files.sources[..n] == files.sources;
    assert files.targets[..n] == files.targets;
    var ps := Pairs(files.sources, files.targets);
    assert ps == Normalized(records);
    FromSortedPairs(ps);
    ImportCleanIff(ws, files);
  }

  /**
   Importing an export is clean and yields the same keys in the same order,
   each action normalized by its text form; with only canonical actions it
   gives back the changeset itself.
   */
  lemma {:induction false} ExportImportRoundTrip(cs: ChangeSet)
    requires Sorted(cs.records)
    requires Writable(cs.records)
    ensures var imp := Imported(cs.workspace, Export(cs));
            IsClean(imp) && imp.records == Normalized(cs.records)
    ensures (forall i :: 0 <= i < |cs.records| ==> Canonical(cs.records[i].1)) ==>
              Clean(Imported(cs.workspace, Export(cs))) == Some(cs)
  {
    assert Export(cs) == Sidecars(KeySeq(cs.records), FormatAll(cs.records));
    ImportRecordLines(cs.workspace, cs.records);
    if forall i :: 0 <= i < |cs.records| ==> Canonical(cs.records[i].1) {
      forall i | 0 <= i < |cs.records| ensures Parse(Format(cs.records[i].1)) == cs.records[i].1 {
        RoundTrip(cs.records[i].1);
      }
      assert Normalized(cs.records) == cs.records;
    }
  }
}

=== FILE: cli.dfy ===
/**
 The program's entry points: the exit status a command's result maps to, the
 inline initialization, which has no already-initialized guard, and the status
 report. The inline update and execute are the command versions and are
 modelled once, by `UpdateCommand.Run` and `ExecuteCommand.Run`.
 */
module Cli {
  import opened Options
  import opened ChangeSets
  import opened Scan
  import opened FileSystem
  import opened Errors
  import opened Paths
  import opened Actions
  import opened OrderedMaps
  import opened Lines
  import InitCommand
  import ExecuteCommand
  import UpdateCommand

  /** `exitcode::OK`. */
  const OK: int := 0

  /** `exitcode::DATAERR`: the input data was incorrect. */
  const DATAERR: int := 65

  /** How the process ends: with an exit code, or by handing the internal error back to the runtime. */
  datatype Exit = Code(code: int) | Propagate(cause: FsOp)

  /**
   Success exits with OK; a missing or unclean changeset exits with DATAERR;
   an internal error is passed on unchanged.
   */
  function ExitFor(result: Result<()>): (e: Exit)
    ensures e == Code(OK) <==> result.Ok?
    ensures e == Code(DATAERR) <==> result.Err? && !result.error.InternalError?
    ensures e.Propagate? <==> result.Err? && result.error.InternalError?
    ensures e.Propagate? ==> result == Err(InternalError(e.cause))
  {
    match result
    case Ok(_) => Code(OK)
    case Err(NotInitialized) => Code(DATAERR)
    case Err(NotClean) => Code(DATAERR)
    case Err(InternalError(cause)) => Propagate(cause)
  }

  /**
   An update exits with OK exactly when the changeset exists and is clean,
   and otherwise with DATAERR, having written nothing.
   */
  lemma UpdateExit(ws: Workspace, sidecars: Option<Sidecars>, walk: seq<Entry>)
    requires WalkedFrom(ws.path, walk)
    ensures var o := UpdateCommand.Run(ws, sidecars, walk);
            && (ExitFor(o.status) == Code(OK) <==>
                  sidecars.Some? && |sidecars.value.sources| == |sidecars.value.targets|)
            && (ExitFor(o.status) != Code(OK) ==> ExitFor(o.status) == Code(DATAERR) && o.state == sidecars)
  {
  }

  /**
   The inline `init`: always rebuilds the changeset from the current tree,
   behaving as the `init` command with `force` whatever is on disk, and so
   overwriting a changeset the guarded command would have kept.
   */
  function InlineInit(ws: Workspace, walk: seq<Entry>): (o: Outcome<Option<Sidecars>>)
    requires WalkedFrom(ws.path, walk)
    ensures forall s: Option<Sidecars> :: InitCommand.Run(ws, s, true, walk) == o
    ensures forall s: Option<Sidecars> :: s.Some? && s != o.state ==> InitCommand.Run(ws, s, false, walk).state != o.state
  {
    Outcome(Ok(()), Some(InitCommand.Reset(ws, walk)))
  }

  /** The `status` report: `NotInitialized` without sidecar files, else whether they are clean. */
  function Status(ws: Workspace, sidecars: Option<Sidecars>): (r: Result<bool>)
    ensures sidecars.None? <==> r == Err(NotInitialized)
    ensures sidecars.Some? ==> r == Ok(|sidecars.value.sources| == |sidecars.value.targets|)
  {
    match sidecars
    case None => Err(NotInitialized)
    case Some(files) =>
      ImportCleanIff(ws, files);
      Ok(IsClean(Imported(ws, files)))
  }

  /** A file named a single space is read back from a fresh changeset with a deletion as its action. */
  lemma BlankNameImportsAsDelete()
    ensures var ws := Workspace("w");
            Imported(ws, InitCommand.Reset(ws, [Entry(1, File, "w/ ")])).records == [(" ", Delete)]
  {
    var ws := Workspace("w");
    assert FileName("w/ ") == " ";
    assert ScanTree(ws.path, [Entry(1, File, "w/ ")]) == [" "];
    var records := InitCommand.InitialRecords([" "]);
    assert InitCommand.PlaceholderPairs([" "]) == [(" ", Ignore(" "))];
    assert records == [(" ", Ignore(" "))];
    assert Sorted(records);
    assert Format(Ignore(" ")) == "  ";
    assert IsWhitespace(' ');
    assert Parse("  ") == Delete;
    assert Writable(records);
    ExportImportRoundTrip(ChangeSet(ws, records));
  }

  /** Executing a deletion of the file named a single space removes it and nothing else. */
  lemma ExecuteBlankDelete()
    ensures ExecuteCommand.Executed(Workspace("w"), "w", [(" ", Delete)], Fs(map["w/ " := [7]], {"w"}), map[]) ==
              Outcome(Ok(()), Fs(map[], {"w"}))
  {
    var records := [(" ", Delete)];
    assert records[..0] == [];
    assert Join("w", " ") == "w/ ";
    assert ExecuteCommand.Plan(Workspace("w"), "w", records) == [RemoveFile("w/ ")];
    assert RunOps(Fs(map["w/ " := [7]], {"w"}), [RemoveFile("w/ ")], map[]).fs == Fs(map[], {"w"});
  }

  /**
   A file named a single space, in a freshly initialized changeset that is
   executed without an edit, is deleted: its placeholder line is blank.
   */
  lemma InitThenExecuteDeletesBlankName()
    ensures var ws := Workspace("w");
            var records := Imported(ws, InitCommand.Reset(ws, [Entry(1, File, "w/ ")])).records;
            ExecuteCommand.Executed(ws, ws.path, records, Fs(map["w/ " := [7]], {"w"}), map[]) ==
              Outcome(Ok(()), Fs(map[], {"w"}))
  {
    BlankNameImportsAsDelete();
    ExecuteBlankDelete();
  }
}

=== FILE: execute.dfy ===
/**
 The `execute` command: carries out a clean changeset on the filesystem. The
 records are visited in key order; a move creates the destination's parent
 directories, copies the file and then removes the source, a deletion removes
 the source, a comment does nothing. The first failing operation ends the
 run with that error; what was done before it stays done.
 */
module ExecuteCommand {
  import opened Options
  import opened Paths
  import opened Actions
  import opened OrderedMaps
  import opened ChangeSets
  import opened FileSystem
  import opened Errors

  /** The filesystem operations one record asks for, in the order they are performed. */
  function StepOps(ws: Workspace, root: Path, key: Path, action: Action): seq<FsOp>
  {
    var source := Join(ws.path, key);
    match action
    case Move(p) =>
      var target := Join(root, p);
      var makeParent := match Parent(target) case Some(dir) => [CreateDirAll(dir)] case None => [];
      makeParent + [Copy(source, target), RemoveFile(source)]
    case Delete => [RemoveFile(source)]
    case Ignore(_) => []
  }

  /** The operations of all records, record after record in iteration order. */
  function Plan(ws: Workspace, root: Path, records: Records): seq<FsOp>
    decreases |records|
  {
    if records == [] then []
    else
      var last := records[|records| - 1];
      Plan(ws, root, records[..|records| - 1]) + StepOps(ws, root, last.0, last.1)
  }

  /** The plan of two runs of records is the one plan after the other. */
  lemma {:induction false} PlanAppend(ws: Workspace, root: Path, a: Records, b: Records)
    ensures Plan(ws, root, a + b) == Plan(ws, root, a) + Plan(ws, root, b)
    decreases |b|
  {
    if b == [] {
      assert a + b == a;
    } else {
      var init := b[..|b| - 1];
      assert (a + b)[..|a + b| - 1] == a + init;
      assert (a + b)[|a + b| - 1] == b[|b| - 1];
      PlanAppend(ws, root, a, init);
      assert Plan(ws, root, a + b) == Plan(ws, root, a) + Plan(ws, root, init) + StepOps(ws, root, b[|b| - 1].0, b[|b| - 1].1);
    }
  }

  /**
   Records are handled one after the other in the map's key order: the plan
   is the operations of the records before `i`, then those of record `i`,
   then those of the records after it.
   */
  lemma {:induction false} PlanInKeyOrder(ws: Workspace, root: Path, records: Records, i: int)
    requires 0 <= i < |records|
    ensures Plan(ws, root, records) ==
              Plan(ws, root, records[..i]) + StepOps(ws, root, records[i].0, records[i].1)
                + Plan(ws, root, records[i + 1..])
  {
    assert records[..i + 1][..i] == records[..i];
    assert records[..i + 1] + records[i + 1..] == records;
    PlanAppend(ws, root, records[..i + 1], records[i + 1..]);
  }

  /** How a run of operations ends, as the command reports it. */
  function StatusOf(run: Progress): Result<()>
  {
    match run.failed
    case None => Ok(())
    case Some(op) => Err(InternalError(op))
  }

  /** The reference meaning of executing the records: their plan, stopped at the first failure. */
  function Executed(ws: Workspace, root: Path, records: Records, fs: Fs, faults: Faults): Outcome<Fs>
  {
    var run := RunOps(fs, Plan(ws, root, records), faults);
    Outcome(StatusOf(run), run.fs)
  }

  /** Performs operations one at a time, stopping at the first that fails. */
  method Perform(fs: Fs, ops: seq<FsOp>, faults: Faults) returns (run: Progress)
    ensures run == RunOps(fs, ops, faults)
  {
    var current := fs;
    var j := 0;
    while j < |ops|
      invariant 0 <= j <= |ops|
      invariant RunOps(fs, ops[..j], faults) == Progress(current, j, None)
    {
      match Apply(current, ops[j], faults) {
        case None =>
          RunOpsAppend(fs, ops[..j], ops[j..], faults);
          assert ops[..j] + ops[j..] == ops;
          return Progress(Failed(current, ops[j], faults), j, Some(ops[j]));
        case Some(next) =>
          RunOpsAppend(fs, ops[..j], [ops[j]], faults);
          assert ops[..j] + [ops[j]] == ops[..j + 1];
          current := next;
      }
      j := j + 1;
    }
    assert ops[..j] == ops;
    return Progress(current, j, None);
  }

  /** One record's step extends the run of the records before it, and a failing step ends the whole run. */
  lemma {:induction false} ExecuteStep(ws: Workspace, root: Path, records: Records, i: int, fs: Fs, faults: Faults, before: Progress)
    requires 0 <= i < |records|
    requires before == RunOps(fs, Plan(ws, root, records[..i]), faults) && before.failed.None?
    ensures var step := RunOps(before.fs, StepOps(ws, root, records[i].0, records[i].1), faults);
            var joined := Progress(step.fs, before.applied + step.applied, step.failed);
            && RunOps(fs, Plan(ws, root, records[..i + 1]), faults) == joined
            && (step.failed.Some? ==> RunOps(fs, Plan(ws, root, records), faults) == joined)
  {
    var ops := StepOps(ws, root, records[i].0, records[i].1);
    assert records[..i + 1][..i] == records[..i];
    RunOpsAppend(fs, Plan(ws, root, records[..i]), ops, faults);
    PlanInKeyOrder(ws, root, records, i);
    assert Plan(ws, root, records) == Plan(ws, root, records[..i + 1]) + Plan(ws, root, records[i + 1..]);
    RunOpsAppend(fs, Plan(ws, root, records[..i + 1]), Plan(ws, root, records[i + 1..]), faults);
  }

  /** The record loop of `execute`: each record's operations in turn, returning at the first error. */
  method Execute(ws: Workspace, root: Path, records: Records, fs: Fs, faults: Faults)
    returns (status: Result<()>, after: Fs)
    ensures Outcome(status, after) == Executed(ws, root, records, fs, faults)
  {
    after := fs;
    var i := 0;
    while i < |records|
      invariant 0 <= i <= |records|
      invariant RunOps(fs, Plan(ws, root, records[..i]), faults) == Progress(after, |Plan(ws, root, records[..i])|, None)
    {
      var (source, action) := records[i];
      var run := Perform(after, StepOps(ws, root, source, action), faults);
      ExecuteStep(ws, root, records, i, fs, faults, RunOps(fs, Plan(ws, root, records[..i]), faults));
      if run.failed.Some? {
        return Err(InternalError(run.failed.value)), run.fs;
      }
      after := run.fs;
      i := i + 1;
    }
    assert records[..i] == records;
    status := Ok(());
  }

  /**
   `execute`: fails with `NotInitialized` when the sidecar files are missing
   and with `NotClean` when their line counts differ, touching nothing;
   otherwise it executes the imported records.
   */
  method Run(ws: Workspace, root: Path, sidecars: Option<Sidecars>, fs: Fs, faults: Faults)
    returns (o: Outcome<Fs>)
    ensures sidecars.None? ==> o == Outcome(Err(NotInitialized), fs)
    ensures sidecars.Some? && |sidecars.value.sources| != |sidecars.value.targets| ==>
              o == Outcome(Err(NotClean), fs)
    ensures sidecars.Some? && |sidecars.value.sources| == |sidecars.value.targets| ==>
              o == Executed(ws, root, Imported(ws, sidecars.value).records, fs, faults)
  {
    if sidecars.None? {
      return Outcome(Err(NotInitialized), fs);
    }
    var imp := Import(ws, sidecars.value);
    ImportCleanIff(ws, sidecars.value);
    var changeset := Clean(imp);
    if changeset.None? {
      return Outcome(Err(NotClean), fs);
    }
    var status, after := Execute(ws, root, changeset.value.records, fs, faults);
    return Outcome(status, after);
  }

  /**
   The first failure aborts: when the run fails, there is a record such that
   every record before it completed, its own operations stopped at the
   failure, and no record after it was started.
   */
  ghost predicate FailsAt(ws: Workspace, root: Path, records: Records, fs: Fs, faults: Faults, k: int)
    requires 0 <= k < |records|
  {
    var before := RunOps(fs, Plan(ws, root, records[..k]), faults);
    var step := RunOps(before.fs, StepOps(ws, root, records[k].0, records[k].1), faults);
    && before.failed.None?
    && step.failed.Some?
    && RunOps(fs, Plan(ws, root, records), faults) == Progress(step.fs, before.applied + step.applied, step.failed)
  }

  /** A failure among the records but the last is a failure of them all, the last one never started. */
  lemma {:induction false} FailsAtExtend(ws: Workspace, root: Path, records: Records, fs: Fs, faults: Faults, k: int)
    requires 0 <= k < |records| - 1
    requires FailsAt(ws, root, records[..|records| - 1], fs, faults, k)
    ensures FailsAt(ws, root, records, fs, faults, k)
  {
    var n := |records| - 1;
    var init := records[..n];
    var ops := StepOps(ws, root, records[n].0, records[n].1);
    assert Plan(ws, root, records) == Plan(ws, root, init) + ops;
    RunOpsAppend(fs, Plan(ws, root, init), ops, faults);
    assert records[..k] == init[..k];
    assert records[k] == init[k];
  }

  lemma {:induction false} FirstFailureAborts(ws: Workspace, root: Path, records: Records, fs: Fs, faults: Faults)
    ensures RunOps(fs, Plan(ws, root, records), faults).failed.Some? <==>
              exists k :: 0 <= k < |records| && FailsAt(ws, root, records, fs, faults, k)
    decreases |records|
  {
    if records != [] {
      var n := |records| - 1;
      var init := records[..n];
      var first := RunOps(fs, Plan(ws, root, init), faults);
      var ops := StepOps(ws, root, records[n].0, records[n].1);
      assert Plan(ws, root, records) == Plan(ws, root, init) + ops;
      RunOpsAppend(fs, Plan(ws, root, init), ops, faults);
      if first.failed.Some? {
        FirstFailureAborts(ws, root, init, fs, faults);
        var k :| 0 <= k < |init| && FailsAt(ws, root, init, fs, faults, k);
        FailsAtExtend(ws, root, records, fs, faults, k);
      } else if RunOps(fs, Plan(ws, root, records), faults).failed.Some? {
        assert records[..n] == init;
        assert FailsAt(ws, root, records, fs, faults, n);
      }
    }
  }

  /** The run of three operations, spelled out step by step. */
  lemma {:induction false} RunThree(s: Fs, a: FsOp, b: FsOp, c: FsOp, faults: Faults)
    ensures RunOps(s, [a, b, c], faults) ==
              match Apply(s, a, faults)
              case None => Progress(Failed(s, a, faults), 0, Some(a))
              case Some(s1) =>
                match Apply(s1, b, faults)
                case None => Progress(Failed(s1, b, faults), 1, Some(b))
                case Some(s2) =>
                  match Apply(s2, c, faults)
                  case None => Progress(Failed(s2, c, faults), 2, Some(c))
                  case Some(s3) => Progress(s3, 3, None)
  {
    assert [a, b, c][1..] == [b, c];
    assert [b, c][1..] == [c];
    assert [c][1..] == [];
    match Apply(s, a, faults)
    case None =>
    case Some(s1) =>
      match Apply(s1, b, faults)
      case None =>
      case Some(s2) =>
        var last := RunOps(s2, [c], faults);
        assert RunOps(s1, [b, c], faults) == Progress(last.fs, last.applied + 1, last.failed);
        match Apply(s2, c, faults)
        case None =>
        case Some(s3) =>
          assert RunOps(s3, [], faults) == Progress(s3, 0, None);
  }

  /**
   A failed move never loses the file: the source keeps its bytes, unless the
   move was onto the source's own path. A failed directory creation changes no
   file. A torn copy changes no file but the destination, which then holds a
   prefix of the source's bytes; a copy that failed without writing leaves
   the destination as it was. When only the removal failed, the destination holds
   the whole file, unless it is the source's own path: the copy onto itself
   truncated the file, and what is left there is empty.
   */
  lemma {:induction false} MoveNeverLosesData(ws: Workspace, root: Path, key: Path, p: Path, s: Fs, faults: Faults)
    requires Join(ws.path, key) in s.files
    ensures var source, target := Join(ws.path, key), Join(root, p);
            var run := RunOps(s, StepOps(ws, root, key, Move(p)), faults);
            run.failed.Some? && source != target ==>
              source in run.fs.files && run.fs.files[source] == s.files[source]
    ensures var source, target := Join(ws.path, key), Join(root, p);
            var run := RunOps(s, StepOps(ws, root, key, Move(p)), faults);
            run.failed == Some(CreateDirAll(Parent(target).value)) ==> run.fs.files == s.files
    ensures var source, target := Join(ws.path, key), Join(root, p);
            var run := RunOps(s, StepOps(ws, root, key, Move(p)), faults);
            run.failed == Some(Copy(source, target)) ==>
              && (forall q :: q != target ==> (q in run.fs.files <==> q in s.files))
              && (forall q :: q != target && q in s.files ==> run.fs.files[q] == s.files[q])
              && (target in run.fs.files ==>
                    (target in s.files && run.fs.files[target] == s.files[target])
                    || run.fs.files[target] <= s.files[source])
              && (Copy(source, target) !in faults || faults[Copy(source, target)].Refused? ==>
                    run.fs.files == s.files)
    ensures var source, target := Join(ws.path, key), Join(root, p);
            var run := RunOps(s, StepOps(ws, root, key, Move(p)), faults);
            run.failed == Some(RemoveFile(source)) ==>
              && source in run.fs.files
              && (source != target ==>
                    && run.fs.files[source] == s.files[source]
                    && target in run.fs.files && run.fs.files[target] == s.files[source])
              && (source == target ==> run.fs.files[source] == [])
  {
    var source, target := Join(ws.path, key), Join(root, p);
    var dir := Parent(target).value;
    var ops := StepOps(ws, root, key, Move(p));
    assert ops == [CreateDirAll(dir), Copy(source, target), RemoveFile(source)];
    RunThree(s, CreateDirAll(dir), Copy(source, target), RemoveFile(source), faults);
    ApplyEffect(s, CreateDirAll(dir), faults);
    match Apply(s, CreateDirAll(dir), faults)
    case None =>
      FailedEffect(s, CreateDirAll(dir), faults);
    case Some(s1) =>
      ApplyEffect(s1, Copy(source, target), faults);
      match Apply(s1, Copy(source, target), faults)
      case None =>
        FailedEffect(s1, Copy(source, target), faults);
      case Some(s2) =>
        ApplyEffect(s2, RemoveFile(source), faults);
        FailedEffect(s2, RemoveFile(source), faults);
  }

  /**
   A completed move leaves the file's bytes at the destination and no file at
   the source, and every other file as it was.
   */
  lemma {:induction false} MoveMovesFile(ws: Workspace, root: Path, key: Path, p: Path, s: Fs, faults: Faults)
    requires Join(ws.path, key) != Join(root, p)
    ensures var source, target := Join(ws.path, key), Join(root, p);
            var run := RunOps(s, StepOps(ws, root, key, Move(p)), faults);
            run.failed.None? ==>
              && source in s.files && source !in run.fs.files
              && target in run.fs.files && run.fs.files[target] == s.files[source]
              && (forall q :: q != source && q != target ==> (q in run.fs.files <==> q in s.files))
              && (forall q :: q != source && q != target && q in s.files ==> run.fs.files[q] == s.files[q])
  {
    var source, target := Join(ws.path, key), Join(root, p);
    var dir := Parent(target).value;
    var ops := StepOps(ws, root, key, Move(p));
    assert ops == [CreateDirAll(dir), Copy(source, target), RemoveFile(source)];
    RunThree(s, CreateDirAll(dir), Copy(source, target), RemoveFile(source), faults);
    ApplyEffect(s, CreateDirAll(dir), faults);
    match Apply(s, CreateDirAll(dir), faults)
    case None =>
    case Some(s1) =>
      ApplyEffect(s1, Copy(source, target), faults);
      match Apply(s1, Copy(source, target), faults)
      case None =>
      case Some(s2) =>
        ApplyEffect(s2, RemoveFile(source), faults);
  }

  /**
   A move onto its own path that completes leaves no file there: the copy is
   removed with its source. When only the removal fails, the file is left
   empty, truncated by the copy onto itself.
   */
  lemma {:induction false} MoveOntoItself(ws: Workspace, root: Path, key: Path, p: Path, s: Fs, faults: Faults)
    requires Join(ws.path, key) == Join(root, p)
    ensures var run := RunOps(s, StepOps(ws, root, key, Move(p)), faults);
            run.failed.None? ==> Join(ws.path, key) in s.files && Join(ws.path, key) !in run.fs.files
    ensures var run := RunOps(s, StepOps(ws, root, key, Move(p)), faults);
            run.failed == Some(RemoveFile(Join(ws.path, key))) ==>
              Join(ws.path, key) in run.fs.files && run.fs.files[Join(ws.path, key)] == []
  {
    var source, target := Join(ws.path, key), Join(root, p);
    var dir := Parent(target).value;
    var ops := StepOps(ws, root, key, Move(p));
    assert ops == [CreateDirAll(dir), Copy(source, target), RemoveFile(source)];
    RunThree(s, CreateDirAll(dir), Copy(source, target), RemoveFile(source), faults);
    ApplyEffect(s, CreateDirAll(dir), faults);
    match Apply(s, CreateDirAll(dir), faults)
    case None =>
    case Some(s1) =>
      ApplyEffect(s1, Copy(source, target), faults);
      match Apply(s1, Copy(source, target), faults)
      case None =>
      case Some(s2) =>
        ApplyEffect(s2, RemoveFile(source), faults);
  }

  /**
   Moving "a" onto its own path in workspace "w", when the removal is refused,
   fails at the removal and leaves "w/a" holding no bytes of the three it had.
   */
  lemma SelfMoveRefusedRemovalEmpties()
    ensures var s := Fs(map["w/a" := [1, 2, 3]], {"w"});
            var faults := map[RemoveFile("w/a") := Refused];
            var run := RunOps(s, StepOps(Workspace("w"), "w", "a", Move("a")), faults);
            && run.failed == Some(RemoveFile("w/a"))
            && run.fs.files == map["w/a" := []]
  {
    var s := Fs(map["w/a" := [1, 2, 3]], {"w"});
    var faults := map[RemoveFile("w/a") := Refused];
    assert Join("w", "a") == "w/a";
    LastSlashUnique("w/a", 1);
    assert "w/a"[..1] == "w";
    LastSlashUnique("w", -1);
    assert StepOps(Workspace("w"), "w", "a", Move("a")) == [CreateDirAll("w"), Copy("w/a", "w/a"), RemoveFile("w/a")];
    RunThree(s, CreateDirAll("w"), Copy("w/a", "w/a"), RemoveFile("w/a"), faults);
    assert DirChain("w") == {"w"};
    assert Apply(s, CreateDirAll("w"), faults) == Some(s);
    assert ParentIsDir(s, "w/a");
    assert s.files["w/a" := []] == map["w/a" := []];
    assert Apply(s, Copy("w/a", "w/a"), faults) == Some(Fs(map["w/a" := []], {"w"}));
  }

  /**
   A deletion removes the source and nothing else, and succeeds exactly when
   the source file exists and its removal does not fail; on failure nothing
   changes.
   */
  lemma {:induction false} DeleteTouchesOnlySource(ws: Workspace, root: Path, key: Path, s: Fs, faults: Faults)
    ensures var source := Join(ws.path, key);
            var run := RunOps(s, StepOps(ws, root, key, Delete), faults);
            && (run.failed.None? <==> source in s.files && RemoveFile(source) !in faults)
            && run.fs.dirs == s.dirs
            && run.fs.files == if run.failed.None? then s.files - {source} else s.files
  {
    var source := Join(ws.path, key);
    ApplyEffect(s, RemoveFile(source), faults);
  }

  /** Records that are all comments perform no operation and change nothing. */
  lemma {:induction false} IgnoredRecordsChangeNothing(ws: Workspace, root: Path, records: Records, fs: Fs, faults: Faults)
    requires forall i :: 0 <= i < |records| ==> records[i].1.Ignore?
    ensures Plan(ws, root, records) == []
    ensures Executed(ws, root, records, fs, faults) == Outcome(Ok(()), fs)
    decreases |records|
  {
    if records != [] {
      IgnoredRecordsChangeNothing(ws, root, records[..|records| - 1], fs, faults);
    }
  }
}

=== FILE: filesystem.dfy ===
/**
 An abstract filesystem for the execute command: regular files with their
 bytes, and the set of directories. `create_dir_all`, `reflink_or_copy` and
 `remove_file` are the three operations; each may fail. The environment's
 failures (permissions, a full disk, I/O errors) are given by a map from the
 operations that fail to how they fail; the failures the filesystem itself
 implies (a missing source file, a missing parent directory) are modelled
 directly. Two operations can fail part-way. A copy that falls back to
 `std::fs::copy` creates and truncates its destination before writing, so it
 can leave the bytes written so far in place of whatever the destination
 held. The same truncation empties a file copied onto itself before any
 byte is read. `create_dir_all` creates the missing directories one at a
 time from the outermost down, so it can leave some of them created.
 */
module FileSystem {
  import opened Options
  import opened Paths

  newtype byte = b: int | 0 <= b < 256

  type Bytes = seq<byte>

  datatype Fs = Fs(files: map<Path, Bytes>, dirs: set<Path>)

  datatype FsOp = CreateDirAll(dir: Path) | Copy(from: Path, to: Path) | RemoveFile(path: Path)

  /** The directory a new file at `p` would live in exists. */
  predicate ParentIsDir(fs: Fs, p: Path)
  {
    match Parent(p)
    case None => true
    case Some(q) => q == [] || q in fs.dirs
  }

  /**
   How the environment makes an operation fail: `Refused` before it changed
   anything, or `Torn` after `steps` steps of its work: for a copy that had
   created and truncated its destination, the number of the source's bytes
   written; for a directory creation, the number of levels of the directory
   chain, from the outermost down, it got through.
   */
  datatype Fault = Refused | Torn(steps: nat)

  type Faults = map<FsOp, Fault>

  /** A copy whose source exists and whose destination can be created as a file. */
  predicate CopyCanStart(fs: Fs, from: Path, to: Path)
  {
    from in fs.files && to !in fs.dirs && ParentIsDir(fs, to)
  }

  /**
   The bytes a copy reads from its source: all of them, except that a copy
   onto its own source has truncated it first and reads none. A reflink onto
   an existing path is refused, so a copy onto itself always takes the
   truncating fallback.
   */
  function CopyBytes(fs: Fs, from: Path, to: Path): (bytes: Bytes)
    requires from in fs.files
    ensures from != to ==> bytes == fs.files[from]
    ensures from == to ==> bytes == []
  {
    if from == to then [] else fs.files[from]
  }

  /** Performs one operation; `None` when it fails. */
  function Apply(fs: Fs, op: FsOp, faults: Faults): Option<Fs>
  {
    if op in faults then None
    else
      match op
      case CreateDirAll(d) =>
        if DirChain(d) !! fs.files.Keys then Some(fs.(dirs := fs.dirs + DirChain(d))) else None
      case Copy(from, to) =>
        if CopyCanStart(fs, from, to)
        then Some(fs.(files := fs.files[to := CopyBytes(fs, from, to)]))
        else None
      case RemoveFile(p) =>
        if p in fs.files then Some(fs.(files := fs.files - {p})) else None
  }

  /**
   The directories a directory creation torn after `n` levels of `chain` has
   made: it stops early at a level where a file is in the way.
   */
  function PartlyCreated(chain: seq<Path>, files: set<Path>, n: nat): (made: set<Path>)
    ensures forall p :: p in made ==> p in chain && p !in files
    decreases |chain|
  {
    if chain == [] || n == 0 || chain[0] in files then {}
    else {chain[0]} + PartlyCreated(chain[1..], files, n - 1)
  }

  /**
   The filesystem a failed operation leaves behind: unchanged, except that a
   copy torn part-way leaves its destination holding a prefix of what it
   read from the source, and a directory creation torn part-way leaves the outer directories it
   had made.
   */
  function Failed(fs: Fs, op: FsOp, faults: Faults): Fs
  {
    if op in faults && faults[op].Torn? then
      var n := faults[op].steps;
      match op
      case CreateDirAll(d) =>
        fs.(dirs := fs.dirs + PartlyCreated(DirsTopDown(d), fs.files.Keys, n))
      case Copy(from, to) =>
        if CopyCanStart(fs, from, to) then
          var bytes := CopyBytes(fs, from, to);
          fs.(files := fs.files[to := bytes[..if n <= |bytes| then n else |bytes|]])
        else fs
      case RemoveFile(_) => fs
    else fs
  }

  /**
   A refused operation, and a failed removal, change nothing. A failed
   directory creation changes no file and removes no directory; the
   directories it leaves are the target and its ancestors, where no file
   was. A failed copy creates no directory and changes no file other than
   its destination, which then holds a prefix of the source's bytes.
   */
  lemma {:induction false} FailedEffect(fs: Fs, op: FsOp, faults: Faults)
    ensures !(op in faults && faults[op].Torn?) || op.RemoveFile? ==> Failed(fs, op, faults) == fs
    ensures !op.CreateDirAll? ==> Failed(fs, op, faults).dirs == fs.dirs
    ensures op.CreateDirAll? ==>
              var after := Failed(fs, op, faults);
              && after.files == fs.files
              && fs.dirs <= after.dirs
              && forall p :: p in after.dirs && p !in fs.dirs ==> p in DirChain(op.dir) && p !in fs.files
    ensures op.Copy? ==>
              var after := Failed(fs, op, faults).files;
              && (forall p :: p != op.to ==> (p in after <==> p in fs.files))
              && (forall p :: p != op.to && p in fs.files ==> after[p] == fs.files[p])
              && (op.to in after ==>
                    (op.to in fs.files && after[op.to] == fs.files[op.to])
                    || (op.from in fs.files && after[op.to] <= fs.files[op.from]))
  {
    if op.CreateDirAll? {
      DirsTopDownChain(op.dir);
    }
  }

  /**
   A directory creation torn after one level, where the outermost missing
   directory could be made, fails but leaves that directory created.
   */
  lemma CreateDirAllTornKeepsOuter()
    ensures var fs := Fs(map[], {});
            var op := CreateDirAll("a/b");
            var run := RunOps(fs, [op], map[op := Torn(1)]);
            && run.failed == Some(op)
            && run.fs == Fs(map[], {"a"})
  {
    LastSlashUnique("a/b", 1);
    assert "a/b"[..1] == "a";
    LastSlashUnique("a", -1);
    assert DirsTopDown("a/b") == ["a", "a/b"];
    assert PartlyCreated(["a", "a/b"], {}, 1) == {"a"} + PartlyCreated(["a/b"], {}, 0);
  }

  /**
   A torn copy onto an existing file destroys that file's bytes, leaving the
   first `n` of the source's; torn onto its own source, it leaves it empty.
   */
  lemma {:induction false} TornCopyClobbers(fs: Fs, from: Path, to: Path, n: nat)
    requires CopyCanStart(fs, from, to) && n <= |fs.files[from]|
    ensures var faults := map[Copy(from, to) := Torn(n)];
            var run := RunOps(fs, [Copy(from, to)], faults);
            && run.failed == Some(Copy(from, to))
            && run.fs.files[to] == if from == to then [] else fs.files[from][..n]
  {
    var faults := map[Copy(from, to) := Torn(n)];
    assert Apply(fs, Copy(from, to), faults).None?;
  }

  /**
   What each operation does when it succeeds, and that nothing else changes:
   a directory creation touches no file and leaves the directory in place, a
   copy gives the destination the source's bytes (none, when the destination
   is the source) and touches no other path, a removal deletes exactly its
   path.
   */
  lemma {:induction false} ApplyEffect(fs: Fs, op: FsOp, faults: Faults)
    ensures op in faults ==> Apply(fs, op, faults).None?
    ensures Apply(fs, op, faults).Some? && op.CreateDirAll? ==>
              var after := Apply(fs, op, faults).value;
              && after.files == fs.files
              && fs.dirs <= after.dirs
              && (op.dir == [] || op.dir in after.dirs)
    ensures op.Copy? ==>
              (Apply(fs, op, faults).Some? <==>
                 op !in faults && op.from in fs.files && op.to !in fs.dirs && ParentIsDir(fs, op.to))
    ensures Apply(fs, op, faults).Some? && op.Copy? ==>
              var after := Apply(fs, op, faults).value;
              && after.dirs == fs.dirs
              && op.to in after.files
              && (op.from != op.to ==> after.files[op.to] == fs.files[op.from])
              && (op.from == op.to ==> after.files[op.to] == [])
              && (forall p :: p != op.to ==> (p in after.files <==> p in fs.files))
              && (forall p :: p != op.to && p in fs.files ==> after.files[p] == fs.files[p])
    ensures op.RemoveFile? ==>
              (Apply(fs, op, faults).Some? <==> op !in faults && op.path in fs.files)
    ensures Apply(fs, op, faults).Some? && op.RemoveFile? ==>
              var after := Apply(fs, op, faults).value;
              && after.dirs == fs.dirs
              && op.path !in after.files
              && (forall p :: p != op.path ==> (p in after.files <==> p in fs.files))
              && (forall p :: p != op.path && p in fs.files ==> after.files[p] == fs.files[p])
  {
  }

  /** The state a sequence of operations reached: how many succeeded, and the one that failed. */
  datatype Progress = Progress(fs: Fs, applied: nat, failed: Option<FsOp>)

  /**
   Performs operations in order and stops at the first failure, as a chain of
   `?` does: the failing operation is reported and nothing after it runs.
   */
  function RunOps(fs: Fs, ops: seq<FsOp>, faults: Faults): (r: Progress)
    ensures r.applied <= |ops|
    ensures r.failed.None? <==> r.applied == |ops|
    ensures r.failed.Some? ==> r.failed.value == ops[r.applied]
    decreases |ops|
  {
    if ops == [] then Progress(fs, 0, None)
    else
      match Apply(fs, ops[0], faults)
      case None => Progress(Failed(fs, ops[0], faults), 0, Some(ops[0]))
      case Some(next) =>
        var rest := RunOps(next, ops[1..], faults);
        Progress(rest.fs, rest.applied + 1, rest.failed)
  }

  /**
   Running two sequences back to back: the second starts from where the
   first ended, and does not start at all when the first failed.
   */
  lemma {:induction false} RunOpsAppend(fs: Fs, a: seq<FsOp>, b: seq<FsOp>, faults: Faults)
    ensures var first := RunOps(fs, a, faults);
            var second := RunOps(first.fs, b, faults);
            RunOps(fs, a + b, faults) ==
              if first.failed.Some? then first
              else Progress(second.fs, first.applied + second.applied, second.failed)
    decreases |a|
  {
    if a != [] {
      assert (a + b)[0] == a[0];
      assert (a + b)[1..] == a[1..] + b;
      match Apply(fs, a[0], faults)
      case None =>
      case Some(next) =>
        RunOpsAppend(next, a[1..], b, faults);
    } else {
      assert a + b == b;
    }
  }

  /**
   The operations before the failing one all succeed, and the failing one is
   then applied to the state they reached and fails there, leaving what a
   failure of it leaves.
   */
  lemma {:induction false} RunOpsPrefix(fs: Fs, ops: seq<FsOp>, faults: Faults)
    ensures var r := RunOps(fs, ops, faults);
            var before := RunOps(fs, ops[..r.applied], faults);
            && before.applied == r.applied && before.failed.None?
            && (r.failed.None? ==> before.fs == r.fs)
            && (r.failed.Some? ==>
                  Apply(before.fs, r.failed.value, faults).None?
                  && r.fs == Failed(before.fs, r.failed.value, faults))
    decreases |ops|
  {
    if ops == [] {
      assert ops[..0] == [];
    } else {
      match Apply(fs, ops[0], faults)
      case None =>
        assert ops[..0] == [];
      case Some(next) =>
        var r := RunOps(fs, ops, faults);
        RunOpsPrefix(next, ops[1..], faults);
        assert ops[..r.applied][1..] == ops[1..][..r.applied - 1];
    }
  }
}

/** The program's error kinds and result type. */
module Errors {
  import opened FileSystem

  /** An internal error is modelled by the filesystem operation that failed. */
  datatype ProgramError = NotInitialized | NotClean | InternalError(cause: FsOp)

  datatype Result<+T> = Ok(value: T) | Err(error: ProgramError)

  /** What a command reports, with the state it leaves behind. */
  datatype Outcome<+S> = Outcome(status: Result<()>, state: S)
}

=== FILE: init.dfy ===
/**
 The `init` command: writes a fresh changeset in which every scanned file is
 kept in place, its target line a comment holding its own path.
 */
module InitCommand {
  import opened Options
  import opened Paths
  import opened Actions
  import opened OrderedMaps
  import opened ChangeSets
  import opened Scan
  import opened Errors
  import opened Lines

  /** Each path paired with its placeholder, in the given order. */
  function PlaceholderPairs(paths: seq<Path>): (ps: seq<(Path, Action)>)
    ensures |ps| == |paths|
    ensures forall i :: 0 <= i < |paths| ==> ps[i] == (paths[i], Placeholder(paths[i]))
  {
    seq(|paths|, i requires 0 <= i < |paths| => (paths[i], Placeholder(paths[i])))
  }

  /** The records of a fresh changeset for the scanned paths. */
  function InitialRecords(paths: seq<Path>): Records
  {
    FromPairs(PlaceholderPairs(paths))
  }

  lemma {:induction false} LastValuePlaceholder(ps: seq<(Path, Action)>, k: Path)
    requires forall i :: 0 <= i < |ps| ==> ps[i].1 == Placeholder(ps[i].0)
    ensures LastValue(ps, k).Some? ==> LastValue(ps, k) == Some(Placeholder(k))
    decreases |ps|
  {
    if ps != [] && ps[|ps| - 1].0 != k {
      LastValuePlaceholder(ps[..|ps| - 1], k);
    }
  }

  /** The initial records hold exactly the scanned paths, each mapped to its own placeholder. */
  lemma {:induction false} InitialRecordsSpec(paths: seq<Path>)
    ensures Sorted(InitialRecords(paths))
    ensures Keys(InitialRecords(paths)) == set p | p in paths
    ensures forall k :: k in paths ==> Get(InitialRecords(paths), k) == Some(Placeholder(k))
  {
    var ps := PlaceholderPairs(paths);
    var records := InitialRecords(paths);
    FromPairsSpec(ps);
    var fromPairs := set i | 0 <= i < |ps| :: ps[i].0;
    forall x | x in fromPairs ensures x in paths {
      var i :| 0 <= i < |ps| && ps[i].0 == x;
      assert paths[i] == x;
    }
    forall x | x in paths ensures x in fromPairs {
      var i :| 0 <= i < |paths| && paths[i] == x;
      assert ps[i].0 == x;
    }
    forall k | k in paths ensures Get(records, k) == Some(Placeholder(k)) {
      GetSome(records, k);
      LastValuePlaceholder(ps, k);
    }
  }

  /** Single-line paths give records that are written and read back line for line. */
  lemma {:induction false} InitialRecordsWritable(paths: seq<Path>)
    requires AllSingle(paths)
    ensures Writable(InitialRecords(paths))
  {
    var ps := PlaceholderPairs(paths);
    var records := InitialRecords(paths);
    forall i | 0 <= i < |ps| ensures WritesOneLine(ps[i].1) {
      PlaceholderWritable(paths[i]);
    }
    FromPairsAll(ps, WritesOneLine);
    InitialRecordsSpec(paths);
    forall i | 0 <= i < |records| ensures SingleLine(records[i].0) {
      assert records[i].0 in Keys(records);
      var j :| 0 <= j < |paths| && paths[j] == records[i].0;
    }
  }

  /** The sidecar files an unconditional initialization writes for the current tree. */
  function Reset(ws: Workspace, walk: seq<Entry>): Sidecars
    requires WalkedFrom(ws.path, walk)
  {
    Export(ChangeSet(ws, InitialRecords(ScanTree(ws.path, walk))))
  }

  /**
   The written files list every scanned path once, in ascending order, each
   target line being a space followed by the source line beside it, when
   every scanned path is a single line.
   */
  lemma {:induction false} ResetLines(ws: Workspace, walk: seq<Entry>)
    requires WalkedFrom(ws.path, walk)
    requires AllSingle(ScanTree(ws.path, walk))
    ensures var files := Reset(ws, walk);
            && |files.sources| == |files.targets|
            && Ascending(files.sources)
            && (forall p :: p in files.sources <==> p in ScanTree(ws.path, walk))
            && (forall i :: 0 <= i < |files.targets| ==> files.targets[i] == " " + files.sources[i])
  {
    var paths := ScanTree(ws.path, walk);
    var records := InitialRecords(paths);
    InitialRecordsWritable(paths);
    assert Reset(ws, walk) == Sidecars(KeySeq(records), FormatAll(records));
    InitialLines(paths);
  }

  /** The lines of the initial records: each path once, ascending, beside a space and itself. */
  lemma {:induction false} InitialLines(paths: seq<Path>)
    ensures var records := InitialRecords(paths);
            var sources, targets := KeySeq(records), FormatAll(records);
            && |sources| == |targets|
            && Ascending(sources)
            && (forall p :: p in sources <==> p in paths)
            && (forall i :: 0 <= i < |targets| ==> targets[i] == " " + sources[i])
  {
    var records := InitialRecords(paths);
    var sources, targets := KeySeq(records), FormatAll(records);
    InitialRecordsSpec(paths);
    forall i | 0 <= i < |targets| ensures targets[i] == " " + sources[i] {
      GetAt(records, i);
      assert records[i].0 in Keys(records);
    }
    forall p ensures p in sources <==> p in paths {
      if p in sources {
        var i :| 0 <= i < |sources| && sources[i] == p;
        assert records[i].0 in Keys(records);
      }
      if p in paths {
        assert p in Keys(records);
        var i :| 0 <= i < |records| && records[i].0 == p;
        assert sources[i] == p;
      }
    }
  }

  /**
   Importing the written files back gives a map keyed by exactly the scanned
   paths (the import is clean, as its line counts agree), when every scanned
   path is a single line.
   */
  lemma {:induction false} ResetReimportedKeys(ws: Workspace, walk: seq<Entry>)
    requires WalkedFrom(ws.path, walk)
    requires AllSingle(ScanTree(ws.path, walk))
    ensures Keys(Imported(ws, Reset(ws, walk)).records) == set p | p in ScanTree(ws.path, walk)
  {
    var paths := ScanTree(ws.path, walk);
    var records := InitialRecords(paths);
    InitialRecordsSpec(paths);
    InitialRecordsWritable(paths);
    ExportImportRoundTrip(ChangeSet(ws, records));
    NormalizedKeys(records);
  }

  /**
   Importing the written files back gives each scanned path its placeholder
   as it reads back: a comment holding the trimmed path, or a deletion when
   the path is all whitespace, so that executing a fresh changeset deletes
   such a file.
   */
  lemma {:induction false} ResetReimportedActions(ws: Workspace, walk: seq<Entry>, p: Path)
    requires WalkedFrom(ws.path, walk)
    requires AllSingle(ScanTree(ws.path, walk))
    requires p in ScanTree(ws.path, walk)
    ensures Get(Imported(ws, Reset(ws, walk)).records, p) == Some(if IsBlank(p) then Delete else Ignore(Trim(p)))
  {
    var paths := ScanTree(ws.path, walk);
    var records := InitialRecords(paths);
    InitialRecordsSpec(paths);
    InitialRecordsWritable(paths);
    ExportImportRoundTrip(ChangeSet(ws, records));
    var r := Normalized(records);
    assert p in Keys(records);
    var i :| 0 <= i < |records| && records[i].0 == p;
    GetAt(records, i);
    GetAt(r, i);
    PlaceholderReparse(p);
  }

  /**
   `init`: without `force`, a workspace whose sidecar files exist is left
   alone and the run still succeeds; otherwise both files are rewritten from
   the current tree, whatever they held. The state is whether the sidecar
   files exist, and their lines.
   */
  function Run(ws: Workspace, sidecars: Option<Sidecars>, force: bool, walk: seq<Entry>): (o: Outcome<Option<Sidecars>>)
    requires WalkedFrom(ws.path, walk)
    ensures o.status == Ok(())
    ensures !force && sidecars.Some? ==> o.state == sidecars
    ensures force || sidecars.None? ==> o.state == Some(Reset(ws, walk))
  {
    if !force && sidecars.Some? then Outcome(Ok(()), sidecars)
    else Outcome(Ok(()), Some(Reset(ws, walk)))
  }
}

=== FILE: lines.dfy ===
/**
 Line-oriented text files, as the sidecar files are written and read: each
 line is written followed by a line feed (`writeln!`), and a file is read back
 with `BufRead::lines`, which splits at line feeds and drops one carriage
 return before each. A line holding a line feed, or ending in a carriage
 return, therefore does not come back as it was written.
 */
module Lines {
  /** A line that reads back unchanged: no line feed inside, no carriage return at its end. */
  predicate SingleLine(l: string)
  {
    '\n' !in l && (l == [] || l[|l| - 1] != '\r')
  }

  /** Every line reads back unchanged. */
  predicate AllSingle(lines: seq<string>)
  {
    forall i :: 0 <= i < |lines| ==> SingleLine(lines[i])
  }

  /** The text of a file written one line at a time with `writeln!`. */
  function Written(lines: seq<string>): string
    decreases |lines|
  {
    if lines == [] then [] else lines[0] + "\n" + Written(lines[1..])
  }

  /** The index of the first line feed, or the length when there is none. */
  function LineEnd(t: string): (i: nat)
    ensures i <= |t|
    ensures forall j :: 0 <= j < i ==> t[j] != '\n'
    ensures i < |t| ==> t[i] == '\n'
    decreases |t|
  {
    if t == [] || t[0] == '\n' then 0 else 1 + LineEnd(t[1..])
  }

  /** Drops one carriage return at the end of a line. */
  function StripCr(l: string): string
  {
    if l != [] && l[|l| - 1] == '\r' then l[..|l| - 1] else l
  }

  /**
   `BufRead::lines`: the text up to each line feed, without the line feed and
   without a carriage return just before it; a last line without a line feed
   is kept as it is, and a final line feed starts no empty line.
   */
  function LinesOf(t: string): seq<string>
    decreases |t|
  {
    if t == [] then []
    else
      var i := LineEnd(t);
      if i < |t| then [StripCr(t[..i])] + LinesOf(t[i + 1..])
      else [t]
  }

  /** A line without a line feed ends at the line feed written after it. */
  lemma {:induction false} LineEndWritten(l: string, rest: string)
    requires '\n' !in l
    ensures LineEnd(l + "\n" + rest) == |l|
    decreases |l|
  {
    if l != [] {
      assert l[0] in l;
      assert (l + "\n" + rest)[1..] == l[1..] + "\n" + rest;
      assert forall c :: c in l[1..] ==> c in l;
      LineEndWritten(l[1..], rest);
    }
  }

  /** Lines that are each single reads back as written. */
  lemma {:induction false} ReadWritten(lines: seq<string>)
    ensures AllSingle(lines) ==> LinesOf(Written(lines)) == lines
    decreases |lines|
  {
    if lines != [] && AllSingle(lines) {
      var l := lines[0];
      var rest := Written(lines[1..]);
      var t := l + "\n" + rest;
      assert SingleLine(l);
      LineEndWritten(l, rest);
      assert t[..|l|] == l;
      assert t[|l| + 1..] == rest;
      assert AllSingle(lines[1..]) by {
        forall i | 0 <= i < |lines[1..]| ensures SingleLine(lines[1..][i]) {
          assert lines[1..][i] == lines[i + 1];
        }
      }
      ReadWritten(lines[1..]);
      assert lines == [l] + lines[1..];
    }
  }

  /** A line holding a line feed is read back as the two lines on either side of it. */
  lemma {:induction false} SplitOnRead(x: string, y: string)
    requires SingleLine(x) && SingleLine(y)
    ensures LinesOf(Written([x + "\n" + y])) == [x, y]
  {
    assert [x, y][1..] == [y];
    assert [y][1..] == [];
    assert [x + "\n" + y][1..] == [];
    assert Written([x + "\n" + y]) == Written([x, y]);
    assert AllSingle([x, y]);
    ReadWritten([x, y]);
  }

  /** A line ending in a carriage return loses that one carriage return on reading. */
  lemma {:induction false} DropsCarriageReturn(x: string)
    requires '\n' !in x
    ensures LinesOf(Written([x + "\r"])) == [x]
  {
    var l := x + "\r";
    assert [l][1..] == [];
    assert Written([l]) == l + "\n" + [];
    LineEndWritten(l, []);
    var t := l + "\n" + [];
    assert t[..|l|] == l;
    assert l[..|l| - 1] == x;
    assert t[|l| + 1..] == [];
  }
}

=== FILE: ordered_map.dfy ===
/**
 A `BTreeMap` keyed by paths, modelled as its iteration: a sequence of
 entries in strictly ascending key order. A `BTreeSet` of paths is the same
 structure with unit values.
 */
module OrderedMaps {
  import opened Options
  import opened Paths

  type OrderedMap<V> = seq<(Path, V)>

  /**
   The map's keys strictly ascend. This is `Paths.Ascending` of the key
   sequence (`SortedAscending`), stated on the entries so that proofs about
   maps reach the keys without going through `KeySeq`.
   */
  ghost predicate Sorted<V>(m: OrderedMap<V>)
  {
    forall i, j :: 0 <= i < j < |m| ==> Less(m[i].0, m[j].0)
  }

  function Keys<V>(m: OrderedMap<V>): set<Path>
  {
    set i | 0 <= i < |m| :: m[i].0
  }

  /** The keys in iteration order. */
  function KeySeq<V>(m: OrderedMap<V>): (ks: seq<Path>)
    ensures |ks| == |m|
    ensures forall i :: 0 <= i < |m| ==> ks[i] == m[i].0
  {
    seq(|m|, i requires 0 <= i < |m| => m[i].0)
  }

  /** A map is sorted exactly when its key sequence ascends. */
  lemma {:induction false} SortedAscending<V>(m: OrderedMap<V>)
    ensures Sorted(m) <==> Ascending(KeySeq(m))
  {
    var ks := KeySeq(m);
    if Ascending(ks) {
      forall i, j | 0 <= i < j < |m| ensures Less(m[i].0, m[j].0) {
        assert Less(ks[i], ks[j]);
      }
    }
  }

  lemma {:induction false} KeysCons<V>(e: (Path, V), m: OrderedMap<V>)
    ensures Keys([e] + m) == {e.0} + Keys(m)
  {
    var c := [e] + m;
    assert c[0] == e;
    assert e.0 in Keys(c);
    forall x | x in Keys(c) ensures x in {e.0} + Keys(m) {
      var i :| 0 <= i < |c| && c[i].0 == x;
      if i > 0 {
        assert c[i] == m[i - 1];
      } else {
        assert c[0] == e;
      }
    }
    forall x | x in Keys(m) ensures x in Keys(c) {
      var i :| 0 <= i < |m| && m[i].0 == x;
      assert c[i + 1].0 == x;
    }
  }

  /** Lookup by key. */
  function Get<V>(m: OrderedMap<V>, k: Path): Option<V>
    decreases |m|
  {
    if m == [] then None
    else if m[0].0 == k then Some(m[0].1)
    else Get(m[1..], k)
  }

  /** A lookup finds a value exactly for the keys present. */
  lemma {:induction false} GetSome<V>(m: OrderedMap<V>, k: Path)
    ensures Get(m, k).Some? <==> k in Keys(m)
    decreases |m|
  {
    if m != [] && m[0].0 != k {
      assert m == [m[0]] + m[1..];
      KeysCons(m[0], m[1..]);
      GetSome(m[1..], k);
    } else if m != [] {
      assert m[0].0 in Keys(m);
    }
  }

  /** In a sorted map the entry at index `i` is what a lookup of its key finds. */
  lemma {:induction false} GetAt<V>(m: OrderedMap<V>, i: int)
    requires Sorted(m)
    requires 0 <= i < |m|
    ensures Get(m, m[i].0) == Some(m[i].1)
    decreases i
  {
    if i > 0 {
      assert Less(m[0].0, m[i].0);
      LessIrreflexive(m[i].0);
      GetAt(m[1..], i - 1);
    }
  }

  /** A key below every key of a sorted map is absent from it. */
  lemma {:induction false} GetBelow<V>(m: OrderedMap<V>, k: Path)
    requires Sorted(m)
    requires forall i :: 0 <= i < |m| ==> Less(k, m[i].0)
    ensures Get(m, k) == None
  {
    GetSome(m, k);
    if k in Keys(m) {
      var i :| 0 <= i < |m| && m[i].0 == k;
      LessIrreflexive(k);
    }
  }

  /** `BTreeMap::insert`: adds the key, or replaces the value of an existing key. */
  function Insert<V>(m: OrderedMap<V>, k: Path, v: V): OrderedMap<V>
    decreases |m|
  {
    if m == [] then [(k, v)]
    else if m[0].0 == k then [(k, v)] + m[1..]
    else if Less(k, m[0].0) then [(k, v)] + m
    else [m[0]] + Insert(m[1..], k, v)
  }

  /** Every key after the first of a sorted map is above the first. */
  lemma {:induction false} SortedTail<V>(m: OrderedMap<V>)
    requires Sorted(m) && m != []
    ensures Sorted(m[1..])
    ensures forall x :: x in Keys(m[1..]) ==> Less(m[0].0, x)
  {
    forall x | x in Keys(m[1..]) ensures Less(m[0].0, x) {
      var i :| 0 <= i < |m[1..]| && m[1..][i].0 == x;
      assert m[i + 1].0 == x;
    }
  }

  /** An entry below every key of a sorted map can be put in front of it. */
  lemma {:induction false} SortedCons<V>(e: (Path, V), m: OrderedMap<V>)
    requires Sorted(m)
    requires forall x :: x in Keys(m) ==> Less(e.0, x)
    ensures Sorted([e] + m)
  {
    var r := [e] + m;
    forall j | 0 < j < |r| ensures Less(r[0].0, r[j].0) {
      assert r[j] == m[j - 1];
      assert m[j - 1].0 in Keys(m);
    }
  }

  /** An insert adds at most one entry, and adds exactly the inserted key. */
  lemma {:induction false} InsertKeys<V>(m: OrderedMap<V>, k: Path, v: V)
    ensures |Insert(m, k, v)| <= |m| + 1
    ensures Keys(Insert(m, k, v)) == Keys(m) + {k}
    decreases |m|
  {
    if m == [] {
      KeysCons((k, v), m);
    } else {
      assert m == [m[0]] + m[1..];
      KeysCons(m[0], m[1..]);
      if m[0].0 == k {
        KeysCons((k, v), m[1..]);
      } else if Less(k, m[0].0) {
        KeysCons((k, v), m);
      } else {
        InsertKeys(m[1..], k, v);
        KeysCons(m[0], Insert(m[1..], k, v));
      }
    }
  }

  /** An insert keeps the map sorted. */
  lemma {:induction false} InsertSorted<V>(m: OrderedMap<V>, k: Path, v: V)
    requires Sorted(m)
    ensures Sorted(Insert(m, k, v))
    decreases |m|
  {
    if m != [] {
      SortedTail(m);
      if m[0].0 == k {
        SortedCons((k, v), m[1..]);
      } else if Less(k, m[0].0) {
        forall x | x in Keys(m) ensures Less(k, x) {
          if x != m[0].0 {
            assert m == [m[0]] + m[1..];
            KeysCons(m[0], m[1..]);
            LessTransitive(k, m[0].0, x);
          }
        }
        SortedCons((k, v), m);
      } else {
        LessTotal(k, m[0].0);
        InsertSorted(m[1..], k, v);
        InsertKeys(m[1..], k, v);
        SortedCons(m[0], Insert(m[1..], k, v));
      }
    }
  }

  /** An insert keeps the map sorted, adds at most one entry, and adds exactly the inserted key. */
  lemma {:induction false} InsertSpec<V>(m: OrderedMap<V>, k: Path, v: V)
    requires Sorted(m)
    ensures Sorted(Insert(m, k, v))
    ensures |Insert(m, k, v)| <= |m| + 1
    ensures Keys(Insert(m, k, v)) == Keys(m) + {k}
  {
    InsertKeys(m, k, v);
    InsertSorted(m, k, v);
  }

  /** After an insert the key maps to the new value and every other lookup is unchanged. */
  lemma {:induction false} InsertGet<V>(m: OrderedMap<V>, k: Path, v: V, x: Path)
    ensures Get(Insert(m, k, v), x) == if x == k then Some(v) else Get(m, x)
    decreases |m|
  {
    if m != [] && m[0].0 != k {
      if Less(k, m[0].0) {
        assert Insert(m, k, v)[1..] == m;
      } else {
        InsertGet(m[1..], k, v, x);
      }
    }
  }

  /** The value the last pair with key `k` carries: last write wins. */
  function LastValue<V>(ps: seq<(Path, V)>, k: Path): Option<V>
    decreases |ps|
  {
    if ps == [] then None
    else if ps[|ps| - 1].0 == k then Some(ps[|ps| - 1].1)
    else LastValue(ps[..|ps| - 1], k)
  }

  lemma {:induction false} LastValueAt<V>(ps: seq<(Path, V)>, i: int)
    requires 0 <= i < |ps|
    requires forall j :: i < j < |ps| ==> ps[j].0 != ps[i].0
    ensures LastValue(ps, ps[i].0) == Some(ps[i].1)
    decreases |ps|
  {
    if i < |ps| - 1 {
      LastValueAt(ps[..|ps| - 1], i);
    }
  }

  /** Collecting pairs into a map (`Iterator::collect`, or repeated `insert`). */
  function FromPairs<V>(ps: seq<(Path, V)>): (r: OrderedMap<V>)
    ensures Sorted(r)
    ensures |r| <= |ps|
    decreases |ps|
  {
    if ps == [] then []
    else
      var init := FromPairs(ps[..|ps| - 1]);
      InsertSpec(init, ps[|ps| - 1].0, ps[|ps| - 1].1);
      Insert(init, ps[|ps| - 1].0, ps[|ps| - 1].1)
  }

  /**
   The collected map holds exactly the keys of the pairs, each with the value
   of its last pair: a later duplicate overwrites an earlier one.
   */
  lemma {:induction false} FromPairsSpec<V>(ps: seq<(Path, V)>)
    ensures Keys(FromPairs(ps)) == set i | 0 <= i < |ps| :: ps[i].0
    ensures forall k :: Get(FromPairs(ps), k) == LastValue(ps, k)
    decreases |ps|
  {
    if ps != [] {
      var init := ps[..|ps| - 1];
      FromPairsSpec(init);
      InsertSpec(FromPairs(init), ps[|ps| - 1].0, ps[|ps| - 1].1);
      forall k ensures Get(FromPairs(ps), k) == LastValue(ps, k) {
        InsertGet(FromPairs(init), ps[|ps| - 1].0, ps[|ps| - 1].1, k);
      }
      var all := set i | 0 <= i < |ps| :: ps[i].0;
      var before := set i | 0 <= i < |init| :: init[i].0;
      forall x | x in all ensures x in before + {ps[|ps| - 1].0} {
        var i :| 0 <= i < |ps| && ps[i].0 == x;
        if i < |init| {
          assert init[i].0 == x;
        }
      }
      forall x | x in before ensures x in all {
        var i :| 0 <= i < |init| && init[i].0 == x;
        assert ps[i].0 == x;
      }
      assert ps[|ps| - 1].0 in all;
    }
  }

  /** A property every value of the map and the new value have, every value after an insert has. */
  lemma {:induction false} InsertAll<V>(m: OrderedMap<V>, k: Path, v: V, P: V -> bool)
    requires P(v)
    requires forall i :: 0 <= i < |m| ==> P(m[i].1)
    ensures forall i :: 0 <= i < |Insert(m, k, v)| ==> P(Insert(m, k, v)[i].1)
    decreases |m|
  {
    if m != [] && m[0].0 != k && !Less(k, m[0].0) {
      InsertAll(m[1..], k, v, P);
    }
  }

  /** A property every pair's value has, every value of the collected map has. */
  lemma {:induction false} FromPairsAll<V>(ps: seq<(Path, V)>, P: V -> bool)
    requires forall i :: 0 <= i < |ps| ==> P(ps[i].1)
    ensures forall i :: 0 <= i < |FromPairs(ps)| ==> P(FromPairs(ps)[i].1)
    decreases |ps|
  {
    if ps != [] {
      FromPairsAll(ps[..|ps| - 1], P);
      InsertAll(FromPairs(ps[..|ps| - 1]), ps[|ps| - 1].0, ps[|ps| - 1].1, P);
    }
  }

  /** Inserting a key above every present key appends it. */
  lemma {:induction false} InsertAbove<V>(m: OrderedMap<V>, k: Path, v: V)
    requires Sorted(m)
    requires forall i :: 0 <= i < |m| ==> Less(m[i].0, k)
    ensures Insert(m, k, v) == m + [(k, v)]
    decreases |m|
  {
    if m != [] {
      LessAsymmetric(m[0].0, k);
      LessIrreflexive(k);
      InsertAbove(m[1..], k, v);
    }
  }

  /** Collecting already sorted pairs with distinct keys reproduces them. */
  lemma {:induction false} FromSortedPairs<V>(ps: seq<(Path, V)>)
    requires Sorted(ps)
    ensures FromPairs(ps) == ps
    decreases |ps|
  {
    if ps != [] {
      var init := ps[..|ps| - 1];
      FromSortedPairs(init);
      InsertAbove(init, ps[|ps| - 1].0, ps[|ps| - 1].1);
      assert init + [ps[|ps| - 1]] == ps;
    }
  }
}

=== FILE: paths.dfy ===
/** Optional values, as Rust's `Option`. */
module Options {

  datatype Option<+T> = None | Some(value: T)
}

/**
 Paths as the changeset sees them. A path is modelled by its display text;
 `Less` is the single total order used both for the scanned tree and for the
 keys of the record map, so the merge in the update command compares the two
 sides with the same comparator.
 */
module Paths {
  import opened Options

  type Path = string

  /** Strict lexicographic order on paths, character by character. */
  predicate Less(a: Path, b: Path)
    decreases |a|
  {
    if |a| == 0 then |b| != 0
    else if |b| == 0 then false
    else if a[0] != b[0] then a[0] < b[0]
    else Less(a[1..], b[1..])
  }

  lemma {:induction false} LessIrreflexive(a: Path)
    ensures !Less(a, a)
    decreases |a|
  {
    if |a| != 0 {
      LessIrreflexive(a[1..]);
    }
  }

  lemma {:induction false} LessTransitive(a: Path, b: Path, c: Path)
    requires Less(a, b) && Less(b, c)
    ensures Less(a, c)
    decreases |a|
  {
    if |a| != 0 && a[0] == b[0] && b[0] == c[0] {
      LessTransitive(a[1..], b[1..], c[1..]);
    }
  }

  lemma {:induction false} LessTotal(a: Path, b: Path)
    ensures a == b || Less(a, b) || Less(b, a)
    decreases |a|
  {
    if |a| != 0 && |b| != 0 && a[0] == b[0] {
      LessTotal(a[1..], b[1..]);
      if a[1..] == b[1..] {
        assert a == [a[0]] + a[1..];
        assert b == [b[0]] + b[1..];
      }
    }
  }

  lemma {:induction false} LessAsymmetric(a: Path, b: Path)
    requires Less(a, b)
    ensures !Less(b, a)
  {
    if Less(b, a) {
      LessTransitive(a, b, a);
      LessIrreflexive(a);
    }
  }

  /**
   A sequence of paths in strictly ascending order: the iteration order of a
   `BTreeSet`, and of the source lines an export writes. For the entries of
   a map the same order is `OrderedMaps.Sorted`.
   */
  ghost predicate Ascending(s: seq<Path>)
  {
    forall i, j :: 0 <= i < j < |s| ==> Less(s[i], s[j])
  }

  /** `dir` joined with a relative `name`. */
  function Join(dir: Path, name: Path): Path
  {
    dir + "/" + name
  }

  /** Index of the last separator in `p`, or -1 when there is none. */
  function LastSlash(p: Path): (k: int)
    ensures -1 <= k < |p|
    ensures k >= 0 ==> p[k] == '/'
    ensures forall i :: k < i < |p| ==> p[i] != '/'
    decreases |p|
  {
    if |p| == 0 then -1
    else if p[|p| - 1] == '/' then |p| - 1
    else LastSlash(p[..|p| - 1])
  }

  lemma {:induction false} LastSlashUnique(p: Path, k: int)
    requires -1 <= k < |p|
    requires k >= 0 ==> p[k] == '/'
    requires forall i :: k < i < |p| ==> p[i] != '/'
    ensures LastSlash(p) == k
  {
  }

  /** The final component of `p`. */
  function FileName(p: Path): (name: string)
    ensures '/' !in name
    ensures |name| <= |p| && name == p[|p| - |name|..]
  {
    p[LastSlash(p) + 1..]
  }

  /** The path with its final component removed; `None` only for the empty path. */
  function Parent(p: Path): (r: Option<Path>)
    ensures r.None? <==> p == []
    ensures r.Some? ==> |r.value| < |p| && r.value <= p
  {
    if p == [] then None
    else if LastSlash(p) < 0 then Some([])
    else Some(p[..LastSlash(p)])
  }

  lemma {:induction false} JoinComponents(dir: Path, name: Path)
    ensures FileName(Join(dir, name)) == FileName(name)
    ensures '/' !in name && name != [] ==> Parent(Join(dir, name)) == Some(dir)
  {
    var p := Join(dir, name);
    var k := LastSlash(name);
    if k >= 0 {
      LastSlashUnique(p, |dir| + 1 + k);
    } else {
      LastSlashUnique(p, |dir|);
    }
    assert p[|dir| + 1..] == name;
    assert p[..|dir|] == dir;
  }

  /** A directory and every ancestor of it: what `create_dir_all` brings into existence. */
  function DirChain(d: Path): (ds: set<Path>)
    ensures d != [] ==> d in ds
    ensures [] !in ds
    decreases |d|
  {
    if d == [] then {} else {d} + DirChain(Parent(d).value)
  }

  /**
   A directory and its ancestors from the outermost down: the order in which
   `create_dir_all` creates the missing ones.
   */
  function DirsTopDown(d: Path): (ds: seq<Path>)
    ensures |ds| <= |d|
    decreases |d|
  {
    if d == [] then [] else DirsTopDown(Parent(d).value) + [d]
  }

  /** The top-down list holds exactly the directory and its ancestors, each directly above the next. */
  lemma {:induction false} DirsTopDownChain(d: Path)
    ensures (set p | p in DirsTopDown(d)) == DirChain(d)
    ensures forall i :: 0 < i < |DirsTopDown(d)| ==> Parent(DirsTopDown(d)[i]) == Some(DirsTopDown(d)[i - 1])
    decreases |d|
  {
    if d != [] {
      var up := Parent(d).value;
      DirsTopDownChain(up);
      var ds := DirsTopDown(d);
      assert ds == DirsTopDown(up) + [d];
      if |ds| > 1 {
        assert up != [];
        assert DirsTopDown(up) == DirsTopDown(Parent(up).value) + [up];
      }
    }
  }
}

=== FILE: scan.dfy ===
/**
 The tree scan of the workspace directory. The directory walk itself is an
 input: the entries a recursive walk from the workspace yields, each with its
 depth below the root, its kind and its full path. The scan keeps regular
 files below the root whose name does not start with `.mmv`, and lists them
 relative to the root.
 */
module Scan {
  import opened Paths
  import opened ChangeSets

  datatype Kind = File | Dir | Other

  datatype Entry = Entry(depth: nat, kind: Kind, path: Path)

  /** The names reserved for the workspace's own files. */
  predicate IsReserved(name: string)
  {
    ".mmv" <= name
  }

  /** The entries the scan lists: below the root, regular files, not reserved. */
  predicate Listed(e: Entry)
  {
    e.depth >= 1 && e.kind == File && !IsReserved(FileName(e.path))
  }

  /** What a walk from `root` guarantees: every entry below the root lies inside it. */
  predicate WalkedFrom(root: Path, walk: seq<Entry>)
  {
    forall i :: 0 <= i < |walk| && walk[i].depth >= 1 ==> root + "/" <= walk[i].path
  }

  /** A path inside `root`, with the root's prefix stripped. */
  function Relative(root: Path, p: Path): (rel: Path)
    requires root + "/" <= p
    ensures Join(root, rel) == p
  {
    p[|root| + 1..]
  }

  /** `scan_tree`: the listed entries of the walk, relative to the root, in walk order. */
  function ScanTree(root: Path, walk: seq<Entry>): seq<Path>
    requires WalkedFrom(root, walk)
    decreases |walk|
  {
    if walk == [] then []
    else
      WalkedFromTail(root, walk);
      (if Listed(walk[0]) then [Relative(root, walk[0].path)] else []) + ScanTree(root, walk[1..])
  }

  lemma {:induction false} WalkedFromTail(root: Path, walk: seq<Entry>)
    requires walk != [] && WalkedFrom(root, walk)
    ensures WalkedFrom(root, walk[1..])
  {
    forall i | 0 <= i < |walk[1..]| && walk[1..][i].depth >= 1 ensures root + "/" <= walk[1..][i].path {
      assert walk[1..][i] == walk[i + 1];
    }
  }

  /** Stripping the root is the inverse of joining it. */
  lemma {:induction false} RelativeJoin(root: Path, q: Path, p: Path)
    requires root + "/" <= q
    ensures Relative(root, q) == p <==> q == Join(root, p)
  {
    if q == Join(root, p) {
      assert q[|root| + 1..] == p;
    }
  }

  /** Some listed entry of the walk sits at `q`. */
  ghost predicate ListedAt(walk: seq<Entry>, q: Path)
  {
    exists i :: 0 <= i < |walk| && Listed(walk[i]) && walk[i].path == q
  }

  lemma {:induction false} ListedAtCons(walk: seq<Entry>, q: Path)
    requires walk != []
    ensures ListedAt(walk, q) <==> (Listed(walk[0]) && walk[0].path == q) || ListedAt(walk[1..], q)
  {
    if ListedAt(walk, q) {
      var i :| 0 <= i < |walk| && Listed(walk[i]) && walk[i].path == q;
      if i > 0 {
        assert walk[1..][i - 1] == walk[i];
      }
    }
    if ListedAt(walk[1..], q) {
      var i :| 0 <= i < |walk[1..]| && Listed(walk[1..][i]) && walk[1..][i].path == q;
      assert walk[i + 1] == walk[1..][i];
    }
  }

  /**
   A path is scanned exactly when some listed entry of the walk sits at that
   path below the root: the root itself, directories, other non-files and
   reserved names never appear, and every listed file does.
   */
  lemma {:induction false} ScanTreeListsExactly(root: Path, walk: seq<Entry>, p: Path)
    requires WalkedFrom(root, walk)
    ensures p in ScanTree(root, walk) <==> ListedAt(walk, Join(root, p))
    decreases |walk|
  {
    if walk != [] {
      WalkedFromTail(root, walk);
      ScanTreeListsExactly(root, walk[1..], p);
      ListedAtCons(walk, Join(root, p));
      if Listed(walk[0]) {
        RelativeJoin(root, walk[0].path, p);
      }
    }
  }

  /** No scanned path has a reserved file name. */
  lemma {:induction false} ScanSkipsReserved(root: Path, walk: seq<Entry>, p: Path)
    requires WalkedFrom(root, walk)
    requires p in ScanTree(root, walk)
    ensures !IsReserved(FileName(p))
  {
    ScanTreeListsExactly(root, walk, p);
    var i :| 0 <= i < |walk| && Listed(walk[i]) && walk[i].path == Join(root, p);
    JoinComponents(root, p);
  }

  /** The sidecar files of a workspace are never scanned, so they never become keys. */
  lemma {:induction false} SidecarsNeverScanned(ws: Workspace, walk: seq<Entry>, p: Path)
    requires WalkedFrom(ws.path, walk)
    requires p in ScanTree(ws.path, walk)
    ensures Join(ws.path, p) != SourcesPath(ws)
    ensures Join(ws.path, p) != TargetsPath(ws)
  {
    ScanSkipsReserved(ws.path, walk, p);
    JoinComponents(ws.path, p);
    assert IsReserved(".mmv.sources");
    assert IsReserved(".mmv.targets");
  }
}

=== FILE: update.dfy ===
/**
 The `update` command: brings the changeset in line with the current tree.
 The scanned paths, collected into a sorted set, are merge-joined against the
 sorted record map under the one path order: a path on both sides keeps its
 action, a path only in the tree gets a placeholder, and a record whose path
 is gone is dropped.
 */
module UpdateCommand {
  import opened Options
  import opened Paths
  import opened Actions
  import opened OrderedMaps
  import opened ChangeSets
  import opened Scan
  import opened Errors
  import opened Lines

  /** Each path paired with nothing, as a set of paths is collected. */
  function UnitPairs(paths: seq<Path>): (ps: seq<(Path, ())>)
    ensures |ps| == |paths|
    ensures forall i :: 0 <= i < |paths| ==> ps[i].0 == paths[i]
  {
    seq(|paths|, i requires 0 <= i < |paths| => (paths[i], ()))
  }

  /** Collecting the scanned paths into a `BTreeSet` and iterating it. */
  function CollectTree(paths: seq<Path>): (tree: seq<Path>)
    ensures Ascending(tree)
  {
    KeySeq(FromPairs(UnitPairs(paths)))
  }

  /** The collected tree holds exactly the scanned paths. */
  lemma {:induction false} CollectTreeMembers(paths: seq<Path>)
    ensures forall p :: p in CollectTree(paths) <==> p in paths
  {
    var ps := UnitPairs(paths);
    var m := FromPairs(ps);
    FromPairsSpec(ps);
    forall p ensures p in CollectTree(paths) <==> p in paths {
      if p in CollectTree(paths) {
        var i :| 0 <= i < |m| && m[i].0 == p;
        assert p in Keys(m);
        var j :| 0 <= j < |ps| && ps[j].0 == p;
        assert paths[j] == p;
      }
      if p in paths {
        var j :| 0 <= j < |paths| && paths[j] == p;
        assert ps[j].0 == p;
        assert p in Keys(m);
        var i :| 0 <= i < |m| && m[i].0 == p;
        assert CollectTree(paths)[i] == p;
      }
    }
  }

  /** The action a path of the tree ends up with: its old action if it had one, else its placeholder. */
  function Merged(records: Records, p: Path): Action
  {
    match Get(records, p)
    case Some(a) => a
    case None => Placeholder(p)
  }

  /** Dropping the first record does not change a lookup of a path below or above it. */
  lemma {:induction false} GetTail(records: Records, p: Path)
    requires records != [] && p != records[0].0
    ensures Get(records, p) == Get(records[1..], p)
  {
  }

  /**
   The merge-join (`merge_join_by` with the path order, keeping what the tree
   has): the result lists the tree's paths in order, each with its merged
   action.
   */
  function Reconcile(tree: seq<Path>, records: Records): (r: Records)
    requires Ascending(tree) && Sorted(records)
    ensures |r| == |tree|
    ensures forall i :: 0 <= i < |r| ==> r[i] == (tree[i], Merged(records, tree[i]))
    decreases |tree| + |records|
  {
    if tree == [] then []
    else if records == [] || Less(tree[0], records[0].0) then
      assert Get(records, tree[0]) == None by {
        forall j | 0 <= j < |records| ensures Less(tree[0], records[j].0) {
          if j > 0 {
            LessTransitive(tree[0], records[0].0, records[j].0);
          }
        }
        GetBelow(records, tree[0]);
      }
      [(tree[0], Placeholder(tree[0]))] + Reconcile(tree[1..], records)
    else if tree[0] == records[0].0 then
      var rest := Reconcile(tree[1..], records[1..]);
      assert forall i :: 1 <= i < |tree| ==> Merged(records[1..], tree[i]) == Merged(records, tree[i]) by {
        forall i | 1 <= i < |tree| ensures Merged(records[1..], tree[i]) == Merged(records, tree[i]) {
          LessIrreflexive(tree[0]);
          GetTail(records, tree[i]);
        }
      }
      [records[0]] + rest
    else
      LessTotal(tree[0], records[0].0);
      var rest := Reconcile(tree, records[1..]);
      assert forall i :: 0 <= i < |tree| ==> Merged(records[1..], tree[i]) == Merged(records, tree[i]) by {
        forall i | 0 <= i < |tree| ensures Merged(records[1..], tree[i]) == Merged(records, tree[i]) {
          if i > 0 {
            LessTransitive(records[0].0, tree[0], tree[i]);
          }
          LessIrreflexive(records[0].0);
          GetTail(records, tree[i]);
        }
      }
      rest
  }

  /**
   After the merge the map holds exactly the tree's paths: a path on both
   sides keeps its old action, a path only in the tree gets its placeholder,
   and a path only among the prior records is gone, whatever its action was.
   */
  lemma {:induction false} ReconcileLookup(tree: seq<Path>, records: Records, p: Path)
    requires Ascending(tree) && Sorted(records)
    ensures Sorted(Reconcile(tree, records))
    ensures Keys(Reconcile(tree, records)) == set q | q in tree
    ensures Get(Reconcile(tree, records), p) ==
              if p !in tree then None
              else if p in Keys(records) then Get(records, p)
              else Some(Placeholder(p))
  {
    var r := Reconcile(tree, records);
    forall x | x in Keys(r) ensures x in tree {
      var i :| 0 <= i < |r| && r[i].0 == x;
    }
    forall x | x in tree ensures x in Keys(r) {
      var i :| 0 <= i < |tree| && tree[i] == x;
      assert r[i].0 == x;
    }
    GetSome(r, p);
    GetSome(records, p);
    if p in tree {
      var i :| 0 <= i < |tree| && tree[i] == p;
      GetAt(r, i);
    }
  }

  /** Merging a second time against the same tree changes nothing. */
  lemma {:induction false} ReconcileIdempotent(tree: seq<Path>, records: Records)
    requires Ascending(tree) && Sorted(records)
    ensures Reconcile(tree, Reconcile(tree, records)) == Reconcile(tree, records)
  {
    var r := Reconcile(tree, records);
    forall i | 0 <= i < |tree| ensures Merged(r, tree[i]) == Merged(records, tree[i]) {
      GetAt(r, i);
    }
  }

  /** Merging single-line paths with records whose action texts are single lines keeps them writable. */
  lemma {:induction false} ReconcileWritable(tree: seq<Path>, records: Records)
    requires Ascending(tree) && Sorted(records)
    requires forall p :: p in tree ==> SingleLine(p)
    requires forall i :: 0 <= i < |records| ==> WritesOneLine(records[i].1)
    ensures Writable(Reconcile(tree, records))
  {
    var r := Reconcile(tree, records);
    forall i | 0 <= i < |r| ensures SingleLine(r[i].0) && WritesOneLine(r[i].1) {
      assert r[i].0 == tree[i];
      match Get(records, tree[i])
      case None =>
        PlaceholderWritable(tree[i]);
      case Some(a) =>
        var j :| 0 <= j < |records| && records[j].0 == tree[i] by {
          GetSome(records, tree[i]);
        }
        GetAt(records, j);
    }
  }

  /** The merged map of an update over single-line paths and target lines is writable. */
  lemma {:induction false} RunWritable(ws: Workspace, files: Sidecars, walk: seq<Entry>)
    requires WalkedFrom(ws.path, walk)
    requires AllSingle(ScanTree(ws.path, walk)) && AllSingle(files.targets)
    ensures Writable(Reconcile(CollectTree(ScanTree(ws.path, walk)), Imported(ws, files).records))
  {
    var paths := ScanTree(ws.path, walk);
    CollectTreeMembers(paths);
    forall p | p in CollectTree(paths) ensures SingleLine(p) {
      var j :| 0 <= j < |paths| && paths[j] == p;
    }
    ImportedWritable(ws, files);
    ReconcileWritable(CollectTree(paths), Imported(ws, files).records);
  }

  /**
   `update`: fails with `NotInitialized` when the sidecar files are missing
   and with `NotClean` when their line counts differ, writing nothing in
   either case; otherwise it rewrites both files from the merged map.
   */
  function Run(ws: Workspace, sidecars: Option<Sidecars>, walk: seq<Entry>): (o: Outcome<Option<Sidecars>>)
    requires WalkedFrom(ws.path, walk)
    ensures sidecars.None? ==> o == Outcome(Err(NotInitialized), sidecars)
    ensures sidecars.Some? && |sidecars.value.sources| != |sidecars.value.targets| ==>
              o == Outcome(Err(NotClean), sidecars)
    ensures o.status.Ok? <==> sidecars.Some? && |sidecars.value.sources| == |sidecars.value.targets|
    ensures o.status.Ok? ==> o.state.Some?
  {
    match sidecars
    case None => Outcome(Err(NotInitialized), sidecars)
    case Some(files) =>
      ImportCleanIff(ws, files);
      match Clean(Imported(ws, files))
      case None => Outcome(Err(NotClean), sidecars)
      case Some(cs) =>
        var tree := CollectTree(ScanTree(cs.workspace.path, walk));
        Outcome(Ok(()), Some(Export(ChangeSet(cs.workspace, Reconcile(tree, cs.records)))))
  }

  /**
   A successful update writes one line pair per path, in ascending order,
   and the target line of each path is its old action's text, or its
   placeholder's when it is new; this holds when every scanned path and
   every target line is a single line.
   */
  lemma {:induction false} RunWrites(ws: Workspace, files: Sidecars, walk: seq<Entry>)
    requires WalkedFrom(ws.path, walk)
    requires |files.sources| == |files.targets|
    requires AllSingle(ScanTree(ws.path, walk)) && AllSingle(files.targets)
    ensures var o := Run(ws, Some(files), walk);
            var prior := Imported(ws, files).records;
            && o.state.Some?
            && |o.state.value.sources| == |o.state.value.targets|
            && Ascending(o.state.value.sources)
            && (forall i :: 0 <= i < |o.state.value.sources| ==>
                  o.state.value.targets[i] == Format(Merged(prior, o.state.value.sources[i])))
  {
    RunWritable(ws, files, walk);
  }

  /** The paths a successful update writes are exactly the scanned ones, when each is a single line. */
  lemma {:induction false} RunWritesScanned(ws: Workspace, files: Sidecars, walk: seq<Entry>)
    requires WalkedFrom(ws.path, walk)
    requires |files.sources| == |files.targets|
    requires AllSingle(ScanTree(ws.path, walk)) && AllSingle(files.targets)
    ensures var o := Run(ws, Some(files), walk);
            o.state.Some? && forall p :: p in o.state.value.sources <==> p in ScanTree(ws.path, walk)
  {
    ImportCleanIff(ws, files);
    CollectTreeMembers(ScanTree(ws.path, walk));
    RunWritable(ws, files, walk);
  }

  /**
   Running update twice on an unchanged tree leaves the sidecar files as the
   first run wrote them, provided every line it writes reads back as written
   (every scanned path and target line is a single line) and every
   placeholder parses back unchanged (no scanned path is empty or has
   surrounding whitespace).
   */
  lemma {:induction false} UpdateStable(ws: Workspace, files: Sidecars, walk: seq<Entry>)
    requires WalkedFrom(ws.path, walk)
    requires |files.sources| == |files.targets|
    requires AllSingle(ScanTree(ws.path, walk)) && AllSingle(files.targets)
    requires forall p :: p in ScanTree(ws.path, walk) ==> Canonical(Placeholder(p))
    ensures Run(ws, Some(files), walk).state.Some?
    ensures Run(ws, Run(ws, Some(files), walk).state, walk) == Run(ws, Some(files), walk)
  {
    ImportCleanIff(ws, files);
    var paths := ScanTree(ws.path, walk);
    var tree := CollectTree(paths);
    CollectTreeMembers(paths);
    var prior := Imported(ws, files).records;
    var r := Reconcile(tree, prior);
    var out := Export(ChangeSet(ws, r));
    RunWritable(ws, files, walk);
    ReconcileLookup(tree, prior, []);
    ExportImportRoundTrip(ChangeSet(ws, r));
    ImportedCanonical(ws, files);
    forall i | 0 <= i < |r| ensures Canonical(r[i].1) {
      match Get(prior, tree[i])
      case None =>
      case Some(a) =>
        var j :| 0 <= j < |prior| && prior[j].0 == tree[i] by {
          GetSome(prior, tree[i]);
        }
        GetAt(prior, j);
    }
    assert Clean(Imported(ws, out)) == Some(ChangeSet(ws, r));
    ReconcileIdempotent(tree, prior);
  }

  /** The tree of a workspace holding one file named " a". */
  lemma SpacedNameTree()
    ensures WalkedFrom("w", [Entry(1, File, "w/ a")])
    ensures ScanTree("w", [Entry(1, File, "w/ a")]) == [" a"]
    ensures CollectTree([" a"]) == [" a"]
  {
    LastSlashUnique("w/ a", 1);
    assert FileName("w/ a") == " a";
    assert UnitPairs([" a"]) == [(" a", ())];
    assert FromPairs([(" a", ())]) == Insert([], " a", ());
  }

  /**
   An update of a clean changeset over a tree holding one path writes that
   path beside the text of its merged action.
   */
  lemma {:induction false} RunOnePath(ws: Workspace, files: Sidecars, walk: seq<Entry>, p: Path)
    requires WalkedFrom(ws.path, walk)
    requires |files.sources| == |files.targets|
    requires CollectTree(ScanTree(ws.path, walk)) == [p]
    requires SingleLine(p) && WritesOneLine(Merged(Imported(ws, files).records, p))
    ensures Run(ws, Some(files), walk).state ==
              Some(Sidecars([p], [Format(Merged(Imported(ws, files).records, p))]))
  {
    ImportCleanIff(ws, files);
    var prior := Imported(ws, files).records;
    assert Clean(Imported(ws, files)) == Some(ChangeSet(ws, prior));
    var r := Reconcile([p], prior);
    assert r == [(p, Merged(prior, p))];
    assert Writable(r);
    assert KeySeq(r) == [p] && FormatAll(r) == [Format(Merged(prior, p))];
  }

  /** An update that finds the new file " a" writes its placeholder, a comment holding the untrimmed name. */
  lemma SpacedNameFirstUpdate()
    ensures Run(Workspace("w"), Some(Sidecars([], [])), [Entry(1, File, "w/ a")]).state ==
              Some(Sidecars([" a"], ["  a"]))
  {
    var files := Sidecars([], []);
    SpacedNameTree();
    assert Imported(Workspace("w"), files).records == [];
    assert Format(Merged([], " a")) == "  a";
    RunOnePath(Workspace("w"), files, [Entry(1, File, "w/ a")], " a");
  }

  /** The placeholder line of " a" is read back as a comment holding the trimmed name. */
  lemma SpacedNameReimport()
    ensures Imported(Workspace("w"), Sidecars([" a"], ["  a"])).records == [(" a", Ignore("a"))]
  {
    var files := Sidecars([" a"], ["  a"]);
    assert IsWhitespace(' ');
    assert Trim("  a") == "a";
    assert Parse("  a") == Ignore("a");
    assert files.sources[..1] == files.sources && files.targets[..1] == files.targets;
    assert Pairs(files.sources, files.targets) == [(" a", Ignore("a"))];
    assert FromPairs([(" a", Ignore("a"))]) == Insert([], " a", Ignore("a"));
  }

  /** That comment is the action the file keeps on the next merge. */
  lemma SpacedNameMerged()
    ensures Format(Merged(Imported(Workspace("w"), Sidecars([" a"], ["  a"])).records, " a")) == " a"
    ensures WritesOneLine(Merged(Imported(Workspace("w"), Sidecars([" a"], ["  a"])).records, " a"))
  {
    SpacedNameReimport();
    var prior := Imported(Workspace("w"), Sidecars([" a"], ["  a"])).records;
    assert Get(prior, " a") == Some(Ignore("a"));
    assert Format(Ignore("a")) == " a";
  }

  /**
   A second update over the same tree reads that comment back trimmed and
   writes a different target line for the file.
   */
  lemma SpacedNameSecondUpdate()
    ensures Run(Workspace("w"), Some(Sidecars([" a"], ["  a"])), [Entry(1, File, "w/ a")]).state ==
              Some(Sidecars([" a"], [" a"]))
  {
    SpacedNameTree();
    SpacedNameMerged();
    assert SingleLine(" a");
    RunOnePath(Workspace("w"), Sidecars([" a"], ["  a"]), [Entry(1, File, "w/ a")], " a");
  }

  /**
   Updating twice over an unchanged tree can write different files: a new
   path with surrounding whitespace gets its placeholder, which the second
   run reads back trimmed.
   */
  lemma UpdateNotStableForSpacedName()
    ensures var walk := [Entry(1, File, "w/ a")];
            var first := Run(Workspace("w"), Some(Sidecars([], [])), walk);
            Run(Workspace("w"), first.state, walk) != first
  {
    SpacedNameFirstUpdate();
    SpacedNameSecondUpdate();
  }
}
